=== FILE: README.md ===
# Recipe app: a verified model of its decision logic

The recipe app is a small CRUD web application. An Express server keeps
recipe documents in a MongoDB collection and exposes five routes under
`/api/recipes`: get by id, list (with optional `search` and `featured`
query parameters), create, update and delete. A browser script renders the
list, the detail view and the add and edit forms. This project models, in
Dafny, the pieces of that code that make decisions:

- `recipe.dfy` (module `Recipes`): the Mongoose recipe schema. A `Recipe`
  datatype with its one required path (`name`), its optional scalars, the
  three ordered array paths and the `isFeatured` default. `Validate` is
  the validation and defaulting done on `save()`. Mongoose's `required`
  rejects both a missing string and an empty string.
- `store.dfy` (module `RecipeStore`): the collection, seen as a
  `map<Id, Recipe>` together with its natural order (the order `find`
  returns documents in).
- `query.dfy` (module `ListQuery`): the list route's resolver from the
  `search`/`featured` parameters to a filter and a limit, and `find(...).limit(n)`.
- `server.dfy` (module `Server`): the five route bodies as pure functions
  `(store, request) -> Transition(store', response, unlink)`. `unlink` lists
  the stored `imageURL` values whose files are handed to `fs.unlink`.
- `text.dfy` (module `Text`) and `client.dfy` (module `Client`): the pure
  parts of the browser script. This covers `trim`, `split(',')` and `join`,
  the serialisation of tags, ingredient rows and instructions on the add and
  edit pages, the filling of the edit form, and the choice of request and
  heading in `fetchRecipes`.
- `wrappers.dfy` and `seqs.dfy`: `Option`/`Result`, and the sequence filter,
  the limit and the subsequence relation.

Three behaviours of the code are modelled as written:

- `fetchRecipes` builds a URL with `?search=` or `?featured=true` but always
  fetches `/api/recipes`. `Client.FetchListsAll` proves that the main page
  therefore always lists every recipe.
- Neither POST nor PUT reads `isFeatured` from the body, although the forms
  send it. `Server.FeaturedNeverSet` proves that no route makes a recipe
  featured.
- Deleting a recipe does not remove its uploaded image. `Server.Delete`
  states that it unlinks nothing.

Things the model takes as parameters:

- `JSON.parse` of the three JSON-encoded fields is a `Server.Decoders` value
  of total functions. `None` stands for a SyntaxError.
- The case-insensitive regular-expression test is a `ListQuery.Matcher`.
- The generated upload filename is the `file` argument.
- The new document's `_id` is the `newId` argument. If it collides with a
  stored id, that is the duplicate-key error, which the create route's catch
  turns into a 400.

## Model

| member | source | states |
|---|---|---|
| `Recipes.Validate` | backend/models/recipe.js:5-26 | a document is saved iff its name is present and non-empty; a saved one carries the given scalars, an empty array for each absent array path and `isFeatured` false when not given |
| `Recipes.OnlyNameRequired` | backend/models/recipe.js:6-9 | whether a document is accepted depends on its name alone |
| `Recipes.NameOnlyDefaults` | backend/models/recipe.js:10-25 | a document given only a name is saved with every optional scalar absent, empty ingredients, instructions and tags, and `isFeatured` false |
| `RecipeStore.DocumentsComplete` | backend/server.js:78 | an unfiltered find over a consistent store returns one document per stored record, each with its stored value |
| `RecipeStore.Insert` | backend/server.js:107-108 | saving a new document adds exactly that key, keeps the store consistent and appends it to the natural order |
| `RecipeStore.Replace` | backend/server.js:154-155 | saving an existing document changes only its value and keeps its place in the natural order |
| `RecipeStore.Remove` | backend/server.js:166 | `findByIdAndDelete` removes exactly that key and keeps the store consistent |
| `Seqs.Limit` | backend/server.js:78 | `.limit(n)` keeps a prefix of length `n`, or everything when there are fewer or when `n` is 0 |
| `ListQuery.Resolve` | backend/server.js:59-76 | a non-empty search gives a search filter with no limit; only without one does `featured` equal to "true" give the featured filter with limit 5; otherwise no filter and no limit |
| `ListQuery.SearchHit` | backend/server.js:63-72 | a recipe matches a search iff the pattern matches one of its search fields: its name, its description when it has one, the name of any ingredient that has one, or any tag |
| `ListQuery.Selected` | backend/server.js:63-78 | the documents selected keep the store's order, all satisfy the filter, and none that satisfies it is missed |
| `ListQuery.Find` | backend/server.js:78 | `.limit(n)` returns the first min(n, number selected) of the selected documents, in order, or all of them when `n` is 0 |
| `Server.Status` | backend/server.js:109-112 | a response is 201 exactly for a created recipe, 404 exactly for a missing id (lines 48, 122, 168) and 400 for every other failure of create and update |
| `Server.Message` | backend/server.js:164-170 | the body says "Recipe not found" exactly when the status is 404 (also lines 48 and 122), "Recipe successfully deleted" exactly for a delete, the validation message for a rejected save, and no fixed message for the other successes |
| `Server.OrEmptyArray` | backend/server.js:88-90 | an absent or empty JSON field is read as the text "[]", any other text as itself |
| `Server.ParsePayload` | backend/server.js:88-90 | the payload parses iff all three fields parse, and then carries exactly the parsed arrays; otherwise parsing fails at the first malformed field, in the order ingredients, instructions, tags (the model records which; the 400 body carries only the parser's message) |
| `Server.UploadPath` | backend/server.js:104 | an uploaded file is referred to by a path under "/uploads/" |
| `Server.GetById` | backend/server.js:43-54 | an absent id is a 404, a present id returns the stored record unchanged, and the store is never modified |
| `Server.List` | backend/server.js:57-83 | listing never fails, changes nothing and returns documents selected by the resolved filter |
| `Server.ListSearchWins` | backend/server.js:63-72 | with a non-empty search, the `featured` parameter has no effect and every recipe matching on name, description, an ingredient name or a tag is returned |
| `Server.ListFeatured` | backend/server.js:73-78 | without a search, `featured=true` returns at most 5 recipes, all featured, being the first five featured ones in store order or all of them when there are fewer |
| `Server.ListDefault` | backend/server.js:60-79 | otherwise every stored recipe is returned, as many as are stored, and an empty store gives an empty list |
| `Server.CreateDraft` | backend/server.js:92-105 | the document a POST builds is accepted iff the body has a non-empty name, and then is not featured, has the body's scalars and the parsed arrays, and has an image path iff a file came |
| `Server.Create` | backend/server.js:86-114 | a create succeeds iff the JSON parses, the name is present and non-empty and the id is new; then it adds exactly that record, with the body's name, description, prepTime, cookTime and servings, not featured, with an image path iff a file was uploaded; on failure it is a 400 and the store is unchanged |
| `Server.CreateDefaults` | backend/server.js:88-101 | absent ingredients, instructions and tags are saved as empty arrays, and the other fields come from the body |
| `Server.CreateIgnoresFeatured` | backend/server.js:92-101 | the `isFeatured` field of the body has no effect on a create |
| `Server.CreateThenGet` | backend/server.js:98-109 | a created recipe is read back by id as created, with the ingredients, instructions and tags in the order sent |
| `Server.StaleImage` | backend/server.js:140-146 | the old `imageURL` is handed to `fs.unlink` iff a new file came with the request and that `imageURL` starts with "/uploads/"; the test is on the text, so `..` after the prefix passes |
| `Server.NewImage` | backend/server.js:140-152 | the saved image is the upload path when a file came; otherwise "" for an empty `imageURL`, the given `imageURL` when it is non-empty, and the old image when none is given; it differs from the old image only when the request carries a file or an `imageURL` |
| `Server.UpdateDraft` | backend/server.js:129-154 | the document a PUT saves is accepted iff the body has a non-empty name, and then has the body's scalars, the parsed arrays, the image chosen by `NewImage` and the old `isFeatured` |
| `Server.UpdateAsWritten` | backend/server.js:117-161 | the PUT route as written: a missing id is a 404 before anything else, a failure leaves the store unchanged, and only a rejected save can unlink anything on failure |
| `Server.Update` | backend/server.js:117-161 | the PUT route with the old image unlinked only after a successful save: it succeeds iff the id is stored, the JSON parses and the name is present and non-empty; a failure changes nothing and unlinks nothing; a success replaces only that record, keeps the store order and unlinks the stale image |
| `Server.UpdateAgreesWithAsWritten` | backend/server.js:140-156 | the corrected route and the route as written give the same store and response, and the same unlinks on success |
| `Server.UpdateNotFoundFirst` | backend/server.js:119-127 | a PUT for a missing id is a 404 whatever the payload, even a malformed one, and changes nothing |
| `Server.UpdateMalformedJson` | backend/server.js:125-127 | a malformed ingredients, instructions or tags field for a present id is a 400 that fails at the first malformed field, in the order ingredients, instructions, tags; both versions change nothing and unlink nothing |
| `Server.UpdateNameRequired` | backend/server.js:154-159 | a PUT for a present id whose body has no name or an empty one is a 400 with the validation message and leaves the store unchanged; the corrected route unlinks nothing, the route as written unlinks the stale image |
| `Server.UpdateAsWrittenRejectedUnlinks` | backend/server.js:140-159 | as written, for every store, a rejected PUT with a new file unlinks the old upload while the unchanged record still refers to it |
| `Server.UpdateOverwrites` | backend/server.js:129-138 | a successful PUT overwrites name, description, prepTime, cookTime, servings, ingredients, instructions and tags from the body, and keeps `isFeatured` |
| `Server.UpdateImageRule` | backend/server.js:140-152 | a new upload sets the upload path and unlinks an old upload; otherwise an empty `imageURL` clears the field, a non-empty one is adopted verbatim, and an absent one keeps the old value |
| `Server.UpdateUploadWins` | backend/server.js:140-147 | with a new upload, the `imageURL` field of the body has no effect |
| `Server.UpdateOthersUntouched` | backend/server.js:154-155 | a PUT keeps the set of ids and the order, every other record, and every `isFeatured` flag |
| `Server.UpdateAsWrittenDanglingImage` | backend/server.js:140-159 | as written, a PUT with a new file but no name is a 400 that leaves the record pointing at "/uploads/old.png" while unlinking that very file |
| `Server.UpdateKeepsReferencedImage` | backend/server.js:140-156 | after the corrected PUT, the updated record never refers to a file it unlinked, given that the upload got a fresh name |
| `Server.UpdateSharedImage` | backend/server.js:140-152 | two records may hold the same upload path, and a PUT with a file for one of them unlinks the file the other still refers to |
| `Server.UpdateUnlinksOutsideUploads` | backend/server.js:140-151 | a PUT may store "/uploads/../server.js" verbatim, and the next PUT with a file hands that path to `fs.unlink` |
| `Server.Delete` | backend/server.js:164-174 | an absent id is a 404 "Recipe not found" with the store unchanged; a present id removes exactly that key with "Recipe successfully deleted"; no image is unlinked |
| `Server.RoutesPreserveValid` | backend/server.js:86-174 | create, both versions of update, and delete keep the store consistent: every stored id is listed once in the natural order |
| `Server.RoutesPreserveNamed` | backend/models/recipe.js:6-9 | no route stores a recipe without a name |
| `Server.FeaturedNeverSet` | backend/server.js:92-101 | no route makes a recipe featured, so from a store without featured recipes `featured=true` lists nothing |
| `Server.NoneFeaturedListsNothing` | backend/server.js:73-78 | over a store with no featured recipe, `featured=true` returns an empty list |
| `Text.Trim` | frontend/script.js:216 | `trim` gives a substring that neither starts nor ends with a space, dropping only spaces on either side |
| `Text.TrimKeepsSubstring` | frontend/script.js:216 | the trimmed string is the substring of the input that follows its leading spaces, and only spaces follow it |
| `Text.TrimOfTrimmed` | frontend/script.js:216 | a string that neither starts nor ends with a space is left unchanged by `trim` |
| `Text.TrimIdempotent` | frontend/script.js:216 | trimming twice is trimming once |
| `Text.Split` | frontend/script.js:217 | `split(',')` gives at least one piece and no piece contains a comma |
| `Text.JoinSplit` | frontend/script.js:217 | joining the pieces of a split with the separator gives back the string |
| `Text.SplitJoin` | frontend/script.js:217 | splitting a join of comma-free pieces gives back the pieces |
| `Text.Join` | frontend/script.js:270 | an empty list joins to "", and otherwise the text starts with the first piece, followed by the separator when there are more |
| `Seqs.Filter` | frontend/script.js:214-216 | `filter` returns no more elements than it was given, all of them passing the test; a value appears in the result iff it appears in the input and passes, and as often as in the input |
| `Seqs.FilterIsSubseq` | frontend/script.js:214-216 | `filter` keeps the surviving elements in their original order |
| `Client.NonEmpty` | frontend/script.js:216 | `filter(Boolean)` on strings keeps, in order, every occurrence of every non-empty string and nothing else |
| `Client.ParseInstructions` | frontend/script.js:216 | submitted instructions are non-empty and trimmed, form a subsequence of the trimmed inputs, and hold every non-empty trimmed input as often as it occurs |
| `Client.ParseTags` | frontend/script.js:217 | submitted tags are non-empty, trimmed and comma-free, form a subsequence of the trimmed comma-separated pieces, and hold every non-empty trimmed piece as often as it occurs |
| `Client.FormatTags` | frontend/script.js:270 | the edit page's tag field is "" for no tags, and for comma-free tags splits at its commas into the tags, each but the first behind one space |
| `Client.TagsRoundTrip` | frontend/script.js:377 | tags shown joined with ", " on the edit page (line 270) are read back on submit as the same list, when each is trimmed, non-empty and comma-free |
| `Client.AddPageIngredients` | frontend/script.js:207-214 | the add page fails iff some name has no quantity; otherwise its rows have non-empty trimmed names and trimmed quantities, keep input order, and hold every row whose trimmed name is non-empty as often as it occurs |
| `Client.EditPageIngredients` | frontend/script.js:370-374 | the edit page fails iff a row with a non-empty trimmed name has no quantity, and every row it sends has a non-empty name |
| `Client.PagesAgree` | frontend/script.js:370-374 | the edit page gives the same rows as the add page whenever the add page succeeds, and it fails only where the add page fails too |
| `Client.IngredientFields` | frontend/script.js:291-298 | for names and quantities that the row markup of `addIngredientInput` (lines 164-172) shows as typed, the edit form has one row per stored ingredient, in order, with absent parts shown as "", and exactly one blank row when there is none |
| `Client.InstructionFields` | frontend/script.js:301-308 | the edit form shows one text area per stored instruction, in order, and exactly one blank one when there is none; each reads back as its instruction with line endings turned into LF, and unchanged when it holds no CR |
| `Client.TextAreaValue` | frontend/script.js:180 | a text area set to a text reads back with no CR: each CR LF pair and each lone CR becomes one LF, and a text without CR reads back unchanged |
| `Client.TextAreaLoneCRs` | frontend/script.js:180 | for a text without LF, the text area value is the text cut at each CR and joined again with LF: every lone CR becomes one LF and nothing else changes |
| `Client.TextAreaPairs` | frontend/script.js:180 | for a text whose every CR is followed by an LF, the text area value is the text with its CRs deleted: every CR LF pair becomes one LF and nothing else changes |
| `Client.InstructionFieldsNewline` | frontend/script.js:176-181 | a stored instruction "a\rb" is shown, and so sent back, as "a\nb" |
| `Client.IngredientsRoundTrip` | frontend/script.js:291-298 | submitting the edit form as filled sends back the stored names and quantities, without units, in order, and the blank row of an empty list as nothing, for trimmed names and quantities free of quotes, `&`, NUL and line breaks |
| `Client.InstructionsRoundTrip` | frontend/script.js:301-308 | submitting the edit form as filled sends back the stored instructions when each is trimmed, non-empty and free of CR, and an empty list as an empty list |
| `Client.PlanFetch` | frontend/script.js:79-90 | a non-empty search term builds a search request, otherwise the featured flag builds a featured request, otherwise there is no query; the request issued is always the bare list route |
| `Client.FetchHeading` | frontend/script.js:80-88 | the heading names the search term, or says "Featured Recipes", or "All Available Recipes", in that order of precedence |
| `Client.FetchListsAll` | frontend/script.js:90 | whatever the search term or featured flag, the main page receives every stored recipe |
| `Client.FetchBuiltSearch` | frontend/script.js:80-81 | the search request that is built, though never sent, would have returned exactly the matching recipes |

## Left out

- Express, multer and Mongoose wiring: middleware, static serving, `mongoose.connect`, `app.listen` and `.env` loading. These are I/O and library set-up.
- The semantics of `new RegExp(search, 'i')`. The match is the `Matcher` parameter, and the 500 response for an invalid pattern is not modelled.
- `JSON.parse`. The parse is the `Decoders` parameter, so the client's `JSON.stringify` output is not connected to it. Mongoose's casting of the parsed values to the schema's types is not modelled either.
- Generating a name with `Date.now()` for an upload, and multer writing the file. The stored filename is an argument.
- `fs.unlink` itself, which runs asynchronously and only logs its errors. The model returns the stored `imageURL`; the route hands `fs.unlink` that value joined to the server directory.
- Mongoose's cast rules. `servings` is taken as an already-cast number (floating-point numbers are not modelled). `_id` format checks and the 500 response for a malformed id are not modelled. So a 500 never occurs in the model.
- Store failures (500 on list, get and delete), concurrent writers and last-write-wins at the store.
- The DOM: alerts, `confirm`, navigation, event wiring and `fetch` in the browser script. The detail and list views only render data, so they are not modelled.
- `encodeURIComponent`. The built request is modelled as its query parameters, not as URL text.
- `Text.Trim`: its contract states only that the result is trimmed and no longer than the input. That it is the substring between the leading and the trailing spaces is stated by `Text.TrimKeepsSubstring`. JavaScript strings are UTF-16 code units, and the model treats them as Dafny characters. Spaces are the ECMAScript WhiteSpace and LineTerminator code points listed in `Text.IsSpace`.
- `Server.StaleImage`: the path is the stored `imageURL` as text. The `path.join` with the server directory, which resolves `..` segments, is not modelled, so the model does not say which file is deleted. The upload-prefix test does not keep the unlink inside upload storage: `Server.UpdateUnlinksOutsideUploads` shows "/uploads/../server.js" reaching `fs.unlink`.
- `Server.UpdateKeepsReferencedImage`: speaks of the updated record only. A PUT adopts any `imageURL` verbatim, so two records can share an image path, and even the corrected PUT can unlink a file another record still refers to (`Server.UpdateSharedImage`).
- `Client.IngredientFields`: the rows are built as markup, `value="${name}"` set through `innerHTML` (frontend/script.js:167-169). A quote ends the attribute (and can add inputs or rows), `&` starts a character reference, NUL is replaced and the text input strips line breaks. The model does not follow the HTML parser: for such text `IngredientFields` gives `None`.
- `Client.IngredientsRoundTrip`: holds only for ingredients whose name and quantity are trimmed and free of those characters (`Client.Clean`); others are not promised to come back. Units never come back: the form sends only a name and a quantity per row, and the server replaces the stored list, so a saved edit drops every unit.
- `Client.InstructionsRoundTrip`: holds only for instructions without a CR. An instruction stored with a CR, through a direct API call, comes back from the edit form with LF in its place (`Client.InstructionFieldsNewline`).
- `Client.TagsRoundTrip`: the tag field is assumed to keep the text it is set to. If it is a single-line text input, the browser also strips line breaks from a tag. The form markup is not part of this model.
- A `tags` form field that is missing makes `null.split` throw. The forms always have that field, so the model takes it as a string.

## Findings

| source | as written | input that shows it | evidently intended | confidence | as-written member | corrected member |
|---|---|---|---|---|---|---|
| backend/server.js:140-159 | the old image is handed to `fs.unlink` before `recipe.save()`, so a save rejected by validation still deletes it while the unchanged record keeps referring to it | PUT for a record whose `imageURL` is "/uploads/old.png", with a new file and no `name` field: the response is 400 and "/uploads/old.png" is deleted | unlink the old image only once the new document is saved, so that the record a PUT leaves behind never refers to a file that PUT deleted | medium, not executed | `Server.UpdateAsWrittenDanglingImage` | `Server.UpdateKeepsReferencedImage` |

=== FILE: client.dfy ===
/** The pure parts of the browser script: serialising the add and edit forms
    into the fields the server parses, filling the edit form from a stored
    recipe, and choosing the list request and heading of the main page. */
module Client {
  import opened Wrappers
  import opened Text
  import opened Recipes
  import opened RecipeStore
  import opened ListQuery
  import Seqs
  import Server

  /** An ingredient as the forms send it: a name and a quantity, no unit. */
  datatype Row = Row(name: string, quantity: string)

  /** Every string trimmed, in order. */
  function Trims(xs: seq<string>): (r: seq<string>)
    ensures |r| == |xs|
    ensures forall i :: 0 <= i < |xs| ==> r[i] == Trim(xs[i])
  {
    seq(|xs|, i requires 0 <= i < |xs| => Trim(xs[i]))
  }

  /** `filter(Boolean)` on strings: drops the empty ones. */
  function NonEmpty(xs: seq<string>): (r: seq<string>)
    ensures forall i :: 0 <= i < |r| ==> r[i] != ""
    ensures forall x :: x in r <==> x in xs && x != ""
    ensures forall x :: multiset(r)[x] == if x == "" then 0 else multiset(xs)[x]
    ensures Seqs.IsSubseq(r, xs)
  {
    Seqs.FilterIsSubseq((x: string) => x != "", xs);
    Seqs.Filter((x: string) => x != "", xs)
  }

  // ---------------------------------------------------------------------
  // Instructions and tags

  /** `getAll('instruction[]').map(trim).filter(Boolean)`. */
  function ParseInstructions(fields: seq<string>): (r: seq<string>)
    ensures forall i :: 0 <= i < |r| ==> r[i] != "" && Trimmed(r[i])
    ensures Seqs.IsSubseq(r, Trims(fields))
    ensures forall i :: 0 <= i < |fields| && Trim(fields[i]) != "" ==> Trim(fields[i]) in r
    ensures forall x :: multiset(r)[x] == if x == "" then 0 else multiset(Trims(fields))[x]
  {
    NonEmpty(Trims(fields))
  }

  /** `get('tags').split(',').map(trim).filter(Boolean)`. */
  function ParseTags(field: string): (r: seq<string>)
    ensures forall i :: 0 <= i < |r| ==> r[i] != "" && Trimmed(r[i]) && ',' !in r[i]
    ensures Seqs.IsSubseq(r, Trims(Split(field, ',')))
    ensures forall i :: 0 <= i < |Split(field, ',')| && Trim(Split(field, ',')[i]) != "" ==>
      Trim(Split(field, ',')[i]) in r
    ensures forall x :: multiset(r)[x] == if x == "" then 0 else multiset(Trims(Split(field, ',')))[x]
  {
    var pieces := Trims(Split(field, ','));
    TrimsAvoid(Split(field, ','), ',');
    NonEmpty(pieces)
  }

  /** Trimming every piece keeps a character out of all of them. */
  lemma {:induction false} TrimsAvoid(xs: seq<string>, c: char)
    requires forall i :: 0 <= i < |xs| ==> c !in xs[i]
    ensures forall i :: 0 <= i < |Trims(xs)| ==> c !in Trims(xs)[i]
  {
    forall i | 0 <= i < |xs| ensures c !in Trim(xs[i]) {
      TrimInside(xs[i], c);
    }
  }

  /** The tag field of the edit form: `tags.join(', ')`. Split at its
      commas, it gives back the tags, each but the first behind one space,
      provided no tag holds a comma. */
  function FormatTags(tags: seq<string>): (field: string)
    ensures tags == [] ==> field == ""
    ensures tags != [] && (forall i :: 0 <= i < |tags| ==> ',' !in tags[i]) ==> Split(field, ',') == Padded(tags)
  {
    if tags == [] then ""
    else
      FormatSplits(tags);
      Join(tags, ", ")
  }

  /** The pieces `FormatTags` leaves between commas: the first tag, then each
      further tag behind one space. */
  function Padded(tags: seq<string>): (r: seq<string>)
    requires |tags| >= 1
    ensures |r| == |tags| && r[0] == tags[0]
    ensures forall i :: 1 <= i < |tags| ==> r[i] == " " + tags[i]
  {
    [tags[0]] + seq(|tags| - 1, i requires 0 <= i < |tags| - 1 => " " + tags[i + 1])
  }

  /** Joining with ", " is joining the padded pieces with ",". */
  lemma {:induction false} JoinPadded(tags: seq<string>)
    requires |tags| >= 1
    ensures Join(tags, ", ") == Join(Padded(tags), ",")
  {
    if |tags| > 1 {
      JoinPadded(tags[1..]);
      var p := Padded(tags);
      var q := Padded(tags[1..]);
      var a := Join(tags[1..], ", ");
      PaddedTail(tags);
      JoinPadFirst(q);
      assert Join(p[1..], ",") == " " + a;
      JoinCommaSpace(tags, p, a);
    }
  }

  /** Padding the tail of a list pads the first piece of its padding. */
  lemma {:induction false} PaddedTail(tags: seq<string>)
    requires |tags| >= 2
    ensures Padded(tags)[1..] == [" " + Padded(tags[1..])[0]] + Padded(tags[1..])[1..]
  {
    var p, q := Padded(tags), Padded(tags[1..]);
    forall i | 1 <= i < |q| ensures q[i] == " " + tags[i + 1] {
      assert tags[1..][i] == tags[i + 1];
    }
    ShiftPadding(tags, p, q);
  }

  /** The element-wise step of `PaddedTail`, stated for any two sequences
      padded like `Padded(tags)` and `Padded(tags[1..])`. */
  lemma {:induction false} ShiftPadding(tags: seq<string>, p: seq<string>, q: seq<string>)
    requires |tags| >= 2 && |p| == |tags| && |q| == |tags| - 1 && q[0] == tags[1]
    requires forall i :: 1 <= i < |p| ==> p[i] == " " + tags[i]
    requires forall i :: 1 <= i < |q| ==> q[i] == " " + tags[i + 1]
    ensures p[1..] == [" " + q[0]] + q[1..]
  {
    var w := [" " + q[0]] + q[1..];
    forall i | 0 <= i < |w| ensures p[1..][i] == w[i] {
      assert p[i + 1] == " " + tags[i + 1];
    }
  }

  /** The last step of `JoinPadded`: ", " before the rest is "," before the
      rest put behind one space. */
  lemma {:induction false} JoinCommaSpace(tags: seq<string>, p: seq<string>, a: string)
    requires |tags| >= 2 && |p| == |tags| && p[0] == tags[0]
    requires Join(tags[1..], ", ") == a && Join(p[1..], ",") == " " + a
    ensures Join(tags, ", ") == Join(p, ",")
  {
    assert Join(p, ",") == p[0] + "," + (" " + a);
    assert Join(tags, ", ") == tags[0] + ", " + a;
    assert tags[0] + ", " + a == tags[0] + "," + (" " + a);
  }

  lemma {:induction false} FormatSplits(tags: seq<string>)
    requires |tags| >= 1
    ensures (forall i :: 0 <= i < |tags| ==> ',' !in tags[i]) ==> Split(Join(tags, ", "), ',') == Padded(tags)
  {
    if forall i :: 0 <= i < |tags| ==> ',' !in tags[i] {
      JoinPadded(tags);
      var p := Padded(tags);
      forall i | 0 <= i < |p| ensures ',' !in p[i] {
        if i > 0 {
          assert p[i] == " " + tags[i];
        }
      }
      SplitJoin(p, ',');
    }
  }

  /** Putting a space in front of the first piece puts it in front of the join. */
  lemma {:induction false} JoinPadFirst(q: seq<string>)
    requires |q| >= 1
    ensures Join([" " + q[0]] + q[1..], ",") == " " + Join(q, ",")
  {
  }

  /** Round trip of the tag field: the tags shown on the edit page are read
      back as the same list, provided each is trimmed, non-empty and free of
      commas. */
  lemma {:induction false} TagsRoundTrip(tags: seq<string>)
    requires forall i :: 0 <= i < |tags| ==> tags[i] != "" && Trimmed(tags[i]) && ',' !in tags[i]
    ensures ParseTags(FormatTags(tags)) == tags
  {
    if tags == [] {
      assert Split("", ',') == [""];
      assert Trims([""]) == [""];
    } else {
      TrimPieces(tags);
      AllNonEmpty(tags);
    }
  }

  lemma {:induction false} TrimPieces(tags: seq<string>)
    requires |tags| >= 1
    requires forall i :: 0 <= i < |tags| ==> tags[i] != "" && Trimmed(tags[i])
    ensures Trims(Padded(tags)) == tags
  {
    var p := Padded(tags);
    forall i | 0 <= i < |tags| ensures Trim(p[i]) == tags[i] {
      if i == 0 {
        TrimOfTrimmed(tags[0]);
      } else {
        TrimPadded(tags[i]);
      }
    }
  }

  lemma {:induction false} AllNonEmpty(xs: seq<string>)
    requires forall i :: 0 <= i < |xs| ==> xs[i] != ""
    ensures NonEmpty(xs) == xs
  {
    if xs != [] {
      AllNonEmpty(xs[1..]);
      assert xs == [xs[0]] + xs[1..];
    }
  }

  // ---------------------------------------------------------------------
  // Ingredient rows

  /** The i-th name with the i-th quantity, both trimmed. */
  function TrimmedRows(names: seq<string>, quantities: seq<string>): (r: seq<Row>)
    requires |names| <= |quantities|
    ensures |r| == |names|
    ensures forall i :: 0 <= i < |names| ==> r[i] == Row(Trim(names[i]), Trim(quantities[i]))
  {
    seq(|names|, i requires 0 <= i < |names| => Row(Trim(names[i]), Trim(quantities[i])))
  }

  function NamedRows(rows: seq<Row>): seq<Row> {
    Seqs.Filter((r: Row) => r.name != "", rows)
  }

  /** The add page: every name is paired with its quantity, then rows with
      an empty name are dropped. `None` is the TypeError of reading the
      quantity of a name that has none. */
  function AddPageIngredients(names: seq<string>, quantities: seq<string>): (r: Option<seq<Row>>)
    ensures r.Some? <==> |names| <= |quantities|
    ensures r.Some? ==> forall i :: 0 <= i < |r.value| ==>
      r.value[i].name != "" && Trimmed(r.value[i].name) && Trimmed(r.value[i].quantity)
    ensures r.Some? ==> Seqs.IsSubseq(r.value, TrimmedRows(names, quantities))
    ensures r.Some? ==> forall i :: 0 <= i < |names| && Trim(names[i]) != "" ==>
      Row(Trim(names[i]), Trim(quantities[i])) in r.value
    ensures r.Some? ==> forall x ::
      multiset(r.value)[x] == if x.name == "" then 0 else multiset(TrimmedRows(names, quantities))[x]
  {
    if |quantities| < |names| then None
    else
      var rows := TrimmedRows(names, quantities);
      Seqs.FilterIsSubseq((r: Row) => r.name != "", rows);
      Some(NamedRows(rows))
  }

  /** The edit page: only a name that is non-empty once trimmed makes a row,
      and only then is its quantity read. */
  function EditPageIngredients(names: seq<string>, quantities: seq<string>): (r: Option<seq<Row>>)
    ensures r.Some? <==> forall i :: 0 <= i < |names| && Trim(names[i]) != "" ==> i < |quantities|
    ensures r.Some? ==> forall i :: 0 <= i < |r.value| ==> r.value[i].name != ""
    decreases |names|
  {
    if names == [] then Some([])
    else
      var rest := EditPageIngredients(names[1..], if quantities == [] then [] else quantities[1..]);
      if Trim(names[0]) == "" then rest
      else if quantities == [] then None
      else if rest.None? then None
      else Some([Row(Trim(names[0]), Trim(quantities[0]))] + rest.value)
  }

  /** The two pages agree whenever the add page does not fail, and the edit
      page fails only where the add page does too. */
  lemma {:induction false} PagesAgree(names: seq<string>, quantities: seq<string>)
    ensures AddPageIngredients(names, quantities).Some? ==>
      EditPageIngredients(names, quantities) == AddPageIngredients(names, quantities)
    ensures EditPageIngredients(names, quantities).None? ==> AddPageIngredients(names, quantities).None?
    decreases |names|
  {
    if names != [] && |names| <= |quantities| {
      PagesAgree(names[1..], quantities[1..]);
      var rows := TrimmedRows(names, quantities);
      assert rows[1..] == TrimmedRows(names[1..], quantities[1..]);
      NamedRowsStep(rows);
    }
  }

  lemma {:induction false} NamedRowsStep(rows: seq<Row>)
    requires rows != []
    ensures NamedRows(rows) ==
      if rows[0].name != "" then [rows[0]] + NamedRows(rows[1..]) else NamedRows(rows[1..])
  {
  }

  // ---------------------------------------------------------------------
  // Filling the edit form

  /** A string that `value="..."` in the markup of an ingredient row shows
      as itself: no quote to end the attribute, no `&` to start a character
      reference, no NUL for the parser to replace, and no line break for the
      text input to strip. */
  predicate ShowsAsTyped(s: string) {
    '"' !in s && '&' !in s && '\0' !in s && '\n' !in s && '\r' !in s
  }

  /** The text a stored ingredient puts into the two inputs of its row: an
      absent name or quantity is the default parameter "". */
  function ShownName(g: Ingredient): string {
    OrElse(g.name, "")
  }

  function ShownQuantity(g: Ingredient): string {
    OrElse(g.quantity, "")
  }

  /** One form row per stored ingredient, in order, and one blank row when
      there is none. `None` when some name or quantity holds text that the
      markup would change, which the model does not follow. */
  function IngredientFields(ingredients: seq<Ingredient>): (rows: Option<seq<Row>>)
    ensures rows.Some? <==> forall i :: 0 <= i < |ingredients| ==>
      ShowsAsTyped(ShownName(ingredients[i])) && ShowsAsTyped(ShownQuantity(ingredients[i]))
    ensures rows.Some? ==> |rows.value| == if ingredients == [] then 1 else |ingredients|
    ensures ingredients == [] ==> rows == Some([Row("", "")])
    ensures rows.Some? ==> forall i :: 0 <= i < |ingredients| ==>
      rows.value[i] == Row(ShownName(ingredients[i]), ShownQuantity(ingredients[i]))
  {
    if ingredients == [] then Some([Row("", "")])
    else if forall i :: 0 <= i < |ingredients| ==>
      ShowsAsTyped(ShownName(ingredients[i])) && ShowsAsTyped(ShownQuantity(ingredients[i]))
    then
      Some(seq(|ingredients|, i requires 0 <= i < |ingredients| =>
        Row(ShownName(ingredients[i]), ShownQuantity(ingredients[i]))))
    else None
  }

  /** One text area per stored instruction, in order, and one blank one
      when there is none; each holds its instruction as the text area reads
      it back. */
  function InstructionFields(instructions: seq<string>): (fields: seq<string>)
    ensures |fields| == if instructions == [] then 1 else |instructions|
    ensures instructions == [] ==> fields == [""]
    ensures forall i :: 0 <= i < |instructions| ==> fields[i] == TextAreaValue(instructions[i])
    ensures forall i :: 0 <= i < |instructions| && '\r' !in instructions[i] ==> fields[i] == instructions[i]
  {
    if instructions == [] then [""]
    else seq(|instructions|, i requires 0 <= i < |instructions| => TextAreaValue(instructions[i]))
  }

  /** The value a text area gives back for the text it was set to: each
      CR LF pair and each lone CR reads as one LF. */
  function TextAreaValue(s: string): (v: string)
    ensures '\r' !in v
    ensures '\r' !in s ==> v == s
    ensures |v| <= |s|
    decreases |s|
  {
    if s == [] then []
    else if s[0] == '\r' then
      "\n" + TextAreaValue(if |s| > 1 && s[1] == '\n' then s[2..] else s[1..])
    else [s[0]] + TextAreaValue(s[1..])
  }

  /** Without line feeds, every CR is a lone CR: the text area value is the
      text cut at each CR and joined again with LF. */
  lemma {:induction false} TextAreaLoneCRs(s: string)
    requires '\n' !in s
    ensures TextAreaValue(s) == Join(Split(s, '\r'), "\n")
    decreases |s|
  {
    if s != [] {
      TextAreaLoneCRs(s[1..]);
      var rest := Split(s[1..], '\r');
      if s[0] == '\r' {
        assert ([""] + rest)[1..] == rest;
      } else {
        JoinGlue([s[0]], rest, "\n");
      }
    }
  }

  /** When every CR is the first half of a CR LF pair, the text area value is
      the text with its CRs deleted. */
  lemma {:induction false} TextAreaPairs(s: string)
    requires forall i :: 0 <= i < |s| && s[i] == '\r' ==> i + 1 < |s| && s[i + 1] == '\n'
    ensures TextAreaValue(s) == Join(Split(s, '\r'), "")
    decreases |s|
  {
    if s != [] {
      var rest := Split(s[1..], '\r');
      if s[0] == '\r' {
        assert s[1] == '\n';
        var tail := s[2..];
        assert forall i :: 0 <= i < |tail| && tail[i] == '\r' ==> i + 1 < |tail| && tail[i + 1] == '\n' by {
          forall i | 0 <= i < |tail| && tail[i] == '\r' ensures i + 1 < |tail| && tail[i + 1] == '\n' {
            assert s[i + 2] == '\r';
          }
        }
        TextAreaPairs(tail);
        assert s[1..][1..] == tail;
        var rest2 := Split(tail, '\r');
        assert rest == [['\n'] + rest2[0]] + rest2[1..];
        JoinGlue("\n", rest2, "");
        assert ([""] + rest)[1..] == rest;
      } else {
        var tail := s[1..];
        assert forall i :: 0 <= i < |tail| && tail[i] == '\r' ==> i + 1 < |tail| && tail[i + 1] == '\n' by {
          forall i | 0 <= i < |tail| && tail[i] == '\r' ensures i + 1 < |tail| && tail[i + 1] == '\n' {
            assert s[i + 1] == '\r';
          }
        }
        TextAreaPairs(tail);
        JoinGlue([s[0]], rest, "");
      }
    }
  }

  /** A stored instruction with a lone CR comes back from the edit form with
      an LF in its place. */
  lemma {:induction false} InstructionFieldsNewline()
    ensures InstructionFields(["a\rb"]) == ["a\nb"]
  {
    assert TextAreaValue("b") == "b";
    assert "\rb"[1..] == "b";
    assert TextAreaValue("\rb") == "\nb";
    assert "a\rb"[1..] == "\rb";
    assert TextAreaValue("a\rb") == "a\nb";
  }

  /** The `ingredientName[]` fields of a filled form. */
  function Names(rows: seq<Row>): (r: seq<string>)
    ensures |r| == |rows|
    ensures forall i :: 0 <= i < |rows| ==> r[i] == rows[i].name
  {
    if rows == [] then [] else [rows[0].name] + Names(rows[1..])
  }

  /** The `ingredientQuantity[]` fields of a filled form. */
  function Quantities(rows: seq<Row>): (r: seq<string>)
    ensures |r| == |rows|
    ensures forall i :: 0 <= i < |rows| ==> r[i] == rows[i].quantity
  {
    if rows == [] then [] else [rows[0].quantity] + Quantities(rows[1..])
  }

  /** A stored ingredient that the edit form shows and sends back unchanged. */
  predicate Clean(g: Ingredient) {
    && Given(g.name) && Trimmed(g.name.value) && ShowsAsTyped(g.name.value)
    && g.quantity.Some? && Trimmed(g.quantity.value) && ShowsAsTyped(g.quantity.value)
  }

  /** Submitting the edit form as filled sends back the stored ingredients
      (without their units) in order, and an empty list as an empty list. */
  lemma {:induction false} IngredientsRoundTrip(ingredients: seq<Ingredient>)
    requires forall i :: 0 <= i < |ingredients| ==> Clean(ingredients[i])
    ensures var rows := IngredientFields(ingredients);
      && rows.Some?
      && EditPageIngredients(Names(rows.value), Quantities(rows.value)) == Some(if ingredients == [] then [] else rows.value)
  {
    assert forall i :: 0 <= i < |ingredients| ==>
      ShowsAsTyped(ShownName(ingredients[i])) && ShowsAsTyped(ShownQuantity(ingredients[i]));
    var rows := IngredientFields(ingredients).value;
    if ingredients == [] {
      assert rows == [Row("", "")];
      assert Names(rows) == [""] && Quantities(rows) == [""];
      BlankRowSubmit();
    } else {
      forall i | 0 <= i < |rows|
        ensures rows[i].name != "" && Trim(rows[i].name) == rows[i].name && Trim(rows[i].quantity) == rows[i].quantity
      {
        assert Clean(ingredients[i]);
        TrimOfTrimmed(rows[i].name);
        TrimOfTrimmed(rows[i].quantity);
      }
      CleanRowsSubmit(rows);
    }
  }

  /** The single blank row of an empty list is dropped on submit. */
  lemma {:induction false} BlankRowSubmit()
    ensures EditPageIngredients([""], [""]) == Some([])
  {
  }

  lemma {:induction false} CleanRowsSubmit(rows: seq<Row>)
    requires forall i :: 0 <= i < |rows| ==>
      rows[i].name != "" && Trim(rows[i].name) == rows[i].name && Trim(rows[i].quantity) == rows[i].quantity
    ensures EditPageIngredients(Names(rows), Quantities(rows)) == Some(rows)
  {
    if rows != [] {
      CleanRowsSubmit(rows[1..]);
      var ns, qs := Names(rows), Quantities(rows);
      assert ns[1..] == Names(rows[1..]);
      assert qs[1..] == Quantities(rows[1..]);
      EditPageStep(ns, qs);
      assert rows == [rows[0]] + rows[1..];
    }
  }

  /** One step of the edit-page mapping, for a row with a non-empty name. */
  lemma {:induction false} EditPageStep(names: seq<string>, quantities: seq<string>)
    requires names != [] && quantities != [] && Trim(names[0]) != ""
    ensures EditPageIngredients(names, quantities) ==
      match EditPageIngredients(names[1..], quantities[1..])
      case None => None
      case Some(rest) => Some([Row(Trim(names[0]), Trim(quantities[0]))] + rest)
  {
  }

  /** Submitting the edit form as filled sends back the stored instructions,
      and an empty list as an empty list. */
  lemma {:induction false} InstructionsRoundTrip(instructions: seq<string>)
    requires forall i :: 0 <= i < |instructions| ==>
      instructions[i] != "" && Trimmed(instructions[i]) && '\r' !in instructions[i]
    ensures ParseInstructions(InstructionFields(instructions)) == instructions
  {
    var fields := InstructionFields(instructions);
    if instructions == [] {
      assert Trims(fields) == [""];
    } else {
      forall i | 0 <= i < |instructions| ensures Trim(instructions[i]) == instructions[i] {
        TrimOfTrimmed(instructions[i]);
      }
      assert fields == instructions;
      assert Trims(fields) == instructions;
      AllNonEmpty(instructions);
    }
  }

  // ---------------------------------------------------------------------
  // The list request of the main page

  /** The query string of a list request. */
  datatype ListRequest = ListRequest(search: Option<string>, featured: Option<string>)

  /** What `fetchRecipes` decides: the request it builds, the heading it
      shows, and the request it actually issues. */
  datatype FetchPlan = FetchPlan(built: ListRequest, heading: string, issued: ListRequest)

  /** `fetchRecipes(searchTerm, isFeatured)`: a search term wins over the
      featured flag; the request issued is always the bare list route,
      whatever was built. */
  function PlanFetch(searchTerm: string, isFeatured: bool): (p: FetchPlan)
    ensures p.issued == ListRequest(None, None)
    ensures searchTerm != "" ==> p.built == ListRequest(Some(searchTerm), None)
    ensures searchTerm == "" && isFeatured ==> p.built == ListRequest(None, Some("true"))
    ensures searchTerm == "" && !isFeatured ==> p.built == ListRequest(None, None)
  {
    var issued := ListRequest(None, None);
    if searchTerm != "" then
      FetchPlan(ListRequest(Some(searchTerm), None), "Search Results for \"" + searchTerm + "\"", issued)
    else if isFeatured then
      FetchPlan(ListRequest(None, Some("true")), "Featured Recipes", issued)
    else
      FetchPlan(ListRequest(None, None), "All Available Recipes", issued)
  }

  /** The heading names the search term, the featured list, or all recipes. */
  lemma {:induction false} FetchHeading(searchTerm: string, isFeatured: bool)
    ensures var h := PlanFetch(searchTerm, isFeatured).heading;
      && (searchTerm != "" ==> h == "Search Results for \"" + searchTerm + "\"")
      && (searchTerm == "" && isFeatured ==> h == "Featured Recipes")
      && (searchTerm == "" && !isFeatured ==> h == "All Available Recipes")
  {
  }

  /** Whatever the search term or the featured flag, the main page lists
      every stored recipe, because the request it issues carries no query. */
  lemma {:induction false} FetchListsAll(s: Store, searchTerm: string, isFeatured: bool, matches: Matcher)
    requires Valid(s)
    ensures var q := PlanFetch(searchTerm, isFeatured).issued;
      Server.Listing(s, q.search, q.featured, matches) == Documents(s)
  {
    Server.ListDefault(s, None, None, matches);
  }

  /** The request built for a search term would have returned exactly the
      matching recipes. */
  lemma {:induction false} FetchBuiltSearch(s: Store, searchTerm: string, isFeatured: bool, matches: Matcher)
    requires searchTerm != ""
    ensures var q := PlanFetch(searchTerm, isFeatured).built;
      Server.Listing(s, q.search, q.featured, matches) == Selected(s, SearchAny(searchTerm), matches)
  {
  }
}

=== FILE: query.dfy ===
/** The list route's query resolver: optional `search` and `featured` query
    parameters become a store filter and a result limit, which a `find`
    then applies to the store in natural order. */
module ListQuery {
  import opened Wrappers
  import opened Recipes
  import opened RecipeStore
  import Seqs

  /** The three filters the resolver can build. */
  datatype Filter =
    | MatchAll
    | FeaturedOnly
    | SearchAny(pattern: string)

  /** A store query: a filter and a limit, where `0` means no limit. */
  datatype Query = Query(filter: Filter, limit: nat)

  /** The limit put on the featured list. */
  const FeaturedLimit: nat := 5

  /** A pattern matcher: `matches(pattern, field)` holds when the
      case-insensitive regular expression `pattern` matches `field`. */
  type Matcher = (string, string) -> bool

  /** Builds the filter and the limit. A given `search` wins over
      `featured`; only the exact string "true" selects featured recipes. */
  function Resolve(search: Option<string>, featured: Option<string>): (q: Query)
    ensures Given(search) ==> q.filter == SearchAny(search.value) && q.limit == 0
    ensures q.filter == FeaturedOnly <==> !Given(search) && featured == Some("true")
    ensures q.filter == MatchAll <==> !Given(search) && featured != Some("true")
    ensures q.limit != 0 <==> q.filter == FeaturedOnly
    ensures q.filter == FeaturedOnly ==> q.limit == FeaturedLimit
  {
    if Given(search) then Query(SearchAny(search.value), 0)
    else if featured == Some("true") then Query(FeaturedOnly, FeaturedLimit)
    else Query(MatchAll, 0)
  }

  /** The names of the ingredients that have one, in order. */
  function IngredientNames(gs: seq<Ingredient>): (names: seq<string>)
    ensures forall x :: x in names <==> exists i :: 0 <= i < |gs| && gs[i].name == Some(x)
  {
    if gs == [] then []
    else
      var rest := IngredientNames(gs[1..]);
      assert forall i :: 1 <= i < |gs| ==> gs[i] == gs[1..][i - 1];
      if gs[0].name.Some? then [gs[0].name.value] + rest else rest
  }

  /** The strings a search is tried against: the name, the description when
      there is one, every ingredient name and every tag. A pattern matches an
      array path when it matches one of its elements. */
  function SearchFields(r: Recipe): seq<string> {
    [r.name] + (if r.description.Some? then [r.description.value] else [])
      + IngredientNames(r.ingredients) + r.tags
  }

  /** The OR of the four regular-expression conditions of a search: the name,
      the description, the name of any ingredient, or any tag. A path that is
      absent does not match. */
  function SearchHit(r: Recipe, pattern: string, matches: Matcher): (hit: bool)
    ensures hit <==> exists f :: f in SearchFields(r) && matches(pattern, f)
  {
    || matches(pattern, r.name)
    || (r.description.Some? && matches(pattern, r.description.value))
    || (exists i :: 0 <= i < |r.ingredients| &&
          r.ingredients[i].name.Some? && matches(pattern, r.ingredients[i].name.value))
    || (exists i :: 0 <= i < |r.tags| && matches(pattern, r.tags[i]))
  }

  /** Whether a recipe satisfies a filter. */
  predicate Selects(f: Filter, r: Recipe, matches: Matcher) {
    match f
    case MatchAll => true
    case FeaturedOnly => r.isFeatured
    case SearchAny(p) => SearchHit(r, p, matches)
  }

  /** The store documents that satisfy the filter, in natural order. */
  function Selected(s: Store, f: Filter, matches: Matcher): (docs: seq<Document>)
    ensures Seqs.IsSubseq(docs, Documents(s))
    ensures forall i :: 0 <= i < |docs| ==> Selects(f, docs[i].recipe, matches)
    ensures forall i :: 0 <= i < |Documents(s)| && Selects(f, Documents(s)[i].recipe, matches) ==>
      Documents(s)[i] in docs
  {
    var keep := (d: Document) => Selects(f, d.recipe, matches);
    Seqs.FilterIsSubseq(keep, Documents(s));
    Seqs.Filter(keep, Documents(s))
  }

  /** `find(filter).limit(n)`: the first `n` selected documents, or all of
      them when `n` is 0. */
  function Find(s: Store, q: Query, matches: Matcher): (docs: seq<Document>)
    ensures docs <= Selected(s, q.filter, matches)
    ensures q.limit == 0 ==> docs == Selected(s, q.filter, matches)
    ensures q.limit != 0 ==>
      |docs| == if |Selected(s, q.filter, matches)| < q.limit then |Selected(s, q.filter, matches)| else q.limit
  {
    Seqs.Limit(Selected(s, q.filter, matches), q.limit)
  }
}

=== FILE: recipe.dfy ===
/** The recipe document and the validation and defaulting that the schema
    applies when a document is saved. */
module Recipes {
  import opened Wrappers

  /** One entry of the `ingredients` array; every component is optional. */
  datatype Ingredient = Ingredient(name: Option<string>, quantity: Option<string>, unit: Option<string>)

  /** A saved recipe: `name` is always present, the three array paths are
      always sequences (possibly empty), and `isFeatured` is always a boolean. */
  datatype Recipe = Recipe(
    name: string,
    description: Option<string>,
    prepTime: Option<string>,
    cookTime: Option<string>,
    servings: Option<int>,
    ingredients: seq<Ingredient>,
    instructions: seq<string>,
    imageURL: Option<string>,
    tags: seq<string>,
    isFeatured: bool)

  /** A document before it is saved: any path may still be `undefined`. */
  datatype Draft = Draft(
    name: Option<string>,
    description: Option<string>,
    prepTime: Option<string>,
    cookTime: Option<string>,
    servings: Option<int>,
    ingredients: Option<seq<Ingredient>>,
    instructions: Option<seq<string>>,
    imageURL: Option<string>,
    tags: Option<seq<string>>,
    isFeatured: Option<bool>)

  /** The only way the schema rejects a document. */
  datatype ValidationError = NameRequired

  /** The message the route handlers send back for a rejected save. */
  function ValidationMessage(e: ValidationError): string {
    "Recipe validation failed: name: Path `name` is required."
  }

  /** JavaScript truthiness of an optional string: present and non-empty.
      It is also what a required string path of the schema accepts. */
  predicate Given(p: Option<string>) {
    p.Some? && p.value != ""
  }

  /** Saved documents satisfy the schema's one requirement. */
  predicate WellFormed(r: Recipe) {
    r.name != ""
  }

  /** Validation on save: rejects a missing or empty `name`, and otherwise
      fills the defaults (empty arrays, `isFeatured` false). */
  function Validate(d: Draft): (r: Result<Recipe, ValidationError>)
    ensures r.Success? <==> Given(d.name)
    ensures r.Success? ==> WellFormed(r.value) && Some(r.value.name) == d.name
    ensures r.Success? ==> r.value.isFeatured == OrElse(d.isFeatured, false)
    ensures r.Success? ==> r.value.ingredients == OrElse(d.ingredients, [])
    ensures r.Success? ==> r.value.instructions == OrElse(d.instructions, [])
    ensures r.Success? ==> r.value.tags == OrElse(d.tags, [])
    ensures r.Success? ==>
      && r.value.description == d.description
      && r.value.prepTime == d.prepTime
      && r.value.cookTime == d.cookTime
      && r.value.servings == d.servings
      && r.value.imageURL == d.imageURL
  {
    if !Given(d.name) then Failure(NameRequired)
    else Success(Recipe(
      d.name.value, d.description, d.prepTime, d.cookTime, d.servings,
      OrElse(d.ingredients, []), OrElse(d.instructions, []), d.imageURL,
      OrElse(d.tags, []), OrElse(d.isFeatured, false)))
  }

  /** A saved document seen again as a draft, every path set. */
  function AsDraft(r: Recipe): (d: Draft)
    ensures Validate(d) == (if WellFormed(r) then Success(r) else Failure(NameRequired))
  {
    Draft(Some(r.name), r.description, r.prepTime, r.cookTime, r.servings,
      Some(r.ingredients), Some(r.instructions), r.imageURL, Some(r.tags), Some(r.isFeatured))
  }

  /** A draft holding only a name. */
  function NameOnly(name: Option<string>): Draft {
    Draft(name, None, None, None, None, None, None, None, None, None)
  }

  /** `name` is the only required path: whether a draft is accepted depends
      on its name alone. */
  lemma {:induction false} OnlyNameRequired(d: Draft)
    ensures Validate(d).Success? <==> Validate(NameOnly(d.name)).Success?
  {
  }

  /** A document saved with only a name has empty arrays, is not featured and
      has no optional scalar set. */
  lemma {:induction false} NameOnlyDefaults(name: string)
    requires name != ""
    ensures Validate(NameOnly(Some(name))) ==
      Success(Recipe(name, None, None, None, None, [], [], None, [], false))
  {
  }
}

=== FILE: seqs.dfy ===
/** Sequence helpers shared by the server and the client model: the
    `Array.prototype.filter` of JavaScript, the `.limit(n)` of a store query,
    and the subsequence relation used to state that filtering keeps order. */
module Seqs {

  /** The elements of `s` that satisfy `p`, in their original order: every
      occurrence of a passing element is kept. */
  function Filter<T(!new)>(p: T -> bool, s: seq<T>): (r: seq<T>)
    ensures |r| <= |s|
    ensures forall i :: 0 <= i < |r| ==> p(r[i])
    ensures forall x :: x in r <==> x in s && p(x)
    ensures forall x :: multiset(r)[x] == if p(x) then multiset(s)[x] else 0
  {
    if s == [] then []
    else
      assert s == [s[0]] + s[1..];
      if p(s[0]) then [s[0]] + Filter(p, s[1..])
      else Filter(p, s[1..])
  }

  /** `a` is obtained from `b` by deleting some elements, keeping the order
      of the rest. */
  predicate IsSubseq<T(==)>(a: seq<T>, b: seq<T>)
  {
    if a == [] then true
    else if b == [] then false
    else if a[0] == b[0] then IsSubseq(a[1..], b[1..])
    else IsSubseq(a, b[1..])
  }

  lemma {:induction false} FilterIsSubseq<T(!new)>(p: T -> bool, s: seq<T>)
    ensures IsSubseq(Filter(p, s), s)
  {
    if s != [] {
      FilterIsSubseq(p, s[1..]);
      assert [s[0]] + s[1..] == s;
      if !p(s[0]) {
        SubseqOfTail(Filter(p, s[1..]), s[1..], s[0]);
      }
    }
  }

  /** A subsequence of `b` is a subsequence of `b` with any element put in front. */
  lemma {:induction false} SubseqOfTail<T>(a: seq<T>, b: seq<T>, x: T)
    requires IsSubseq(a, b)
    ensures IsSubseq(a, [x] + b)
    decreases |b|, 1
  {
    assert ([x] + b)[1..] == b;
    if a != [] && a[0] == x {
      SubseqDropHead(a, b);
    }
  }

  /** Dropping the first element of a subsequence keeps it a subsequence. */
  lemma {:induction false} SubseqDropHead<T>(a: seq<T>, b: seq<T>)
    requires a != [] && IsSubseq(a, b)
    ensures IsSubseq(a[1..], b)
    decreases |b|, 0
  {
    assert [b[0]] + b[1..] == b;
    if a[0] != b[0] {
      SubseqDropHead(a, b[1..]);
    }
    if a[1..] != [] {
      SubseqOfTail(a[1..], b[1..], b[0]);
    }
  }

  /** The result of a store query `.limit(n)`: `n == 0` means no limit. */
  function Limit<T>(s: seq<T>, n: nat): (r: seq<T>)
    ensures n == 0 ==> r == s
    ensures n > 0 ==> |r| == if |s| < n then |s| else n
    ensures r <= s
  {
    if n == 0 || |s| <= n then s else s[..n]
  }
}

=== FILE: server.dfy ===
/** The five REST route bodies as pure transitions of the store:
    each takes the store and the request and returns the new store, the
    response, and the image files the route asks to unlink. */
module Server {
  import opened Wrappers
  import opened Recipes
  import opened RecipeStore
  import opened ListQuery

  /** The multipart form fields of a POST or PUT request; `None` is a field
      the request does not carry. `servings` is taken as already cast to a
      number. */
  datatype FormBody = FormBody(
    name: Option<string>,
    description: Option<string>,
    prepTime: Option<string>,
    cookTime: Option<string>,
    servings: Option<int>,
    ingredients: Option<string>,
    instructions: Option<string>,
    tags: Option<string>,
    imageURL: Option<string>,
    isFeatured: Option<string>)

  /** `JSON.parse` for the two array shapes the routes read; `None` stands
      for the SyntaxError thrown on malformed text. */
  datatype Decoders = Decoders(
    ingredients: string -> Option<seq<Ingredient>>,
    strings: string -> Option<seq<string>>)

  /** A decoder that, like `JSON.parse`, reads "[]" as the empty array. */
  predicate ReadsEmptyArray(dec: Decoders) {
    dec.ingredients("[]") == Some([]) && dec.strings("[]") == Some([])
  }

  /** The three JSON-encoded fields after parsing. */
  datatype Payload = Payload(ingredients: seq<Ingredient>, instructions: seq<string>, tags: seq<string>)

  /** Why a request fails. */
  datatype Failure =
    | NotFound
    | InvalidJson(field: string)
    | Invalid(error: ValidationError)
    | DuplicateKey

  /** What a successful request sends back. */
  datatype Reply =
    | Found(doc: Document)
    | Listed(docs: seq<Document>)
    | Created(doc: Document)
    | Updated(doc: Document)
    | Deleted

  type Response = Result<Reply, Failure>

  /** The store after the request, the response, and the stored `imageURL`
      values whose files the route hands to `fs.unlink` (each is joined to the
      server directory first, which the model does not do). */
  datatype Transition = Transition(store: Store, response: Response, unlink: seq<string>)

  /** The HTTP status of a response. */
  function Status(r: Response): (code: int)
    ensures code == 404 <==> r == Failure(NotFound)
    ensures code == 400 <==> r.Failure? && r.error != NotFound
    ensures code == 201 <==> r.Success? && r.value.Created?
  {
    match r
    case Success(Created(_)) => 201
    case Success(_) => 200
    case Failure(NotFound) => 404
    case Failure(_) => 400
  }

  /** The `message` field of the JSON body, for the responses that carry a
      fixed one. */
  function Message(r: Response): (m: Option<string>)
    ensures m == Some("Recipe not found") <==> Status(r) == 404
    ensures m == Some("Recipe successfully deleted") <==> r == Success(Deleted)
    ensures r.Failure? && r.error.Invalid? ==> m == Some(ValidationMessage(r.error.error))
    ensures r.Success? && !r.value.Deleted? ==> m.None?
  {
    match r
    case Failure(NotFound) => Some("Recipe not found")
    case Success(Deleted) => Some("Recipe successfully deleted")
    case Failure(Invalid(e)) => Some(ValidationMessage(e))
    case _ => None
  }

  const UploadPrefix: string := "/uploads/"

  /** Where an uploaded file is served, given the name it was stored under. */
  function UploadPath(filename: string): (path: string)
    ensures UploadPrefix <= path
  {
    UploadPrefix + filename
  }

  /** `raw || '[]'`: an absent or empty field is read as the empty array. */
  function OrEmptyArray(raw: Option<string>): (text: string)
    ensures text == "[]" <==> raw.None? || raw == Some("") || raw == Some("[]")
    ensures raw.Some? && raw.value != "" ==> text == raw.value
  {
    if raw.Some? && raw.value != "" then raw.value else "[]"
  }

  /** Parses `ingredients`, `instructions` and `tags` in that order; the
      first malformed one is reported. */
  function ParsePayload(body: FormBody, dec: Decoders): (r: Result<Payload, Failure>)
    ensures r.Success? <==>
      && dec.ingredients(OrEmptyArray(body.ingredients)).Some?
      && dec.strings(OrEmptyArray(body.instructions)).Some?
      && dec.strings(OrEmptyArray(body.tags)).Some?
    ensures r.Success? ==>
      && Some(r.value.ingredients) == dec.ingredients(OrEmptyArray(body.ingredients))
      && Some(r.value.instructions) == dec.strings(OrEmptyArray(body.instructions))
      && Some(r.value.tags) == dec.strings(OrEmptyArray(body.tags))
    ensures r.Failure? ==> r.error.InvalidJson?
    ensures r == Failure(InvalidJson("ingredients")) <==> dec.ingredients(OrEmptyArray(body.ingredients)).None?
    ensures r == Failure(InvalidJson("instructions")) <==>
      dec.ingredients(OrEmptyArray(body.ingredients)).Some? && dec.strings(OrEmptyArray(body.instructions)).None?
    ensures r == Failure(InvalidJson("tags")) <==>
      && dec.ingredients(OrEmptyArray(body.ingredients)).Some?
      && dec.strings(OrEmptyArray(body.instructions)).Some?
      && dec.strings(OrEmptyArray(body.tags)).None?
  {
    match dec.ingredients(OrEmptyArray(body.ingredients))
    case None => Failure(InvalidJson("ingredients"))
    case Some(ingredients) =>
      match dec.strings(OrEmptyArray(body.instructions))
      case None => Failure(InvalidJson("instructions"))
      case Some(instructions) =>
        match dec.strings(OrEmptyArray(body.tags))
        case None => Failure(InvalidJson("tags"))
        case Some(tags) => Success(Payload(ingredients, instructions, tags))
  }

  // ---------------------------------------------------------------------
  // GET /api/recipes/:id

  function GetById(s: Store, id: Id): (t: Transition)
    ensures t.store == s && t.unlink == []
    ensures t.response == Failure(NotFound) <==> id !in s.records
    ensures id in s.records ==> t.response == Success(Found(Document(id, s.records[id])))
  {
    if id in s.records then Transition(s, Success(Found(Document(id, s.records[id]))), [])
    else Transition(s, Failure(NotFound), [])
  }

  // ---------------------------------------------------------------------
  // GET /api/recipes?search=&featured=

  function List(s: Store, search: Option<string>, featured: Option<string>, matches: Matcher): (t: Transition)
    ensures t.store == s && t.unlink == []
    ensures t.response.Success? && t.response.value.Listed?
    ensures t.response.value.docs <= Selected(s, Resolve(search, featured).filter, matches)
  {
    Transition(s, Success(Listed(Find(s, Resolve(search, featured), matches))), [])
  }

  /** The documents a list request returns. */
  function Listing(s: Store, search: Option<string>, featured: Option<string>, matches: Matcher): seq<Document> {
    var t := List(s, search, featured, matches);
    t.response.value.docs
  }

  /** A given search wins over `featured`, and returns every stored recipe
      that matches on any of the four paths, in natural order, with no
      limit. */
  lemma {:induction false} ListSearchWins(s: Store, pattern: string, featured: Option<string>, matches: Matcher)
    requires pattern != ""
    ensures Listing(s, Some(pattern), featured, matches) == Listing(s, Some(pattern), None, matches)
    ensures Listing(s, Some(pattern), featured, matches) == Selected(s, SearchAny(pattern), matches)
    ensures forall i :: 0 <= i < |Documents(s)| && SearchHit(Documents(s)[i].recipe, pattern, matches) ==>
      Documents(s)[i] in Listing(s, Some(pattern), featured, matches)
  {
  }

  /** Without a search, `featured=true` returns at most five recipes, all
      featured: the first five featured ones in natural order, or all of them
      when there are fewer. */
  lemma {:induction false} ListFeatured(s: Store, search: Option<string>, matches: Matcher)
    requires !Given(search)
    ensures var docs := Listing(s, search, Some("true"), matches);
      && |docs| <= 5
      && (forall i :: 0 <= i < |docs| ==> docs[i].recipe.isFeatured)
      && docs <= Selected(s, FeaturedOnly, matches)
      && |docs| == (if |Selected(s, FeaturedOnly, matches)| < 5 then |Selected(s, FeaturedOnly, matches)| else 5)
  {
  }

  /** Without a search and without `featured=true`, every stored recipe is
      returned; an empty store gives an empty list. */
  lemma {:induction false} ListDefault(s: Store, search: Option<string>, featured: Option<string>, matches: Matcher)
    requires Valid(s)
    requires !Given(search) && featured != Some("true")
    ensures Listing(s, search, featured, matches) == Documents(s)
    ensures |Listing(s, search, featured, matches)| == |s.records|
    ensures forall k :: k in s.records ==> Document(k, s.records[k]) in Listing(s, search, featured, matches)
  {
    DocumentsComplete(s);
    Seqs.FilterIsSubseq((d: Document) => Selects(MatchAll, d.recipe, matches), Documents(s));
    FilterAll(Documents(s), matches);
  }

  lemma {:induction false} FilterAll(docs: seq<Document>, matches: Matcher)
    ensures Seqs.Filter((d: Document) => Selects(MatchAll, d.recipe, matches), docs) == docs
  {
    if docs != [] {
      FilterAll(docs[1..], matches);
    }
  }

  // ---------------------------------------------------------------------
  // POST /api/recipes

  /** The document a create request builds before saving it: `isFeatured`
      is never read from the body, and `imageURL` is set only for an upload. */
  function CreateDraft(body: FormBody, p: Payload, file: Option<string>): (d: Draft)
    ensures Validate(d).Success? <==> Given(body.name)
    ensures Validate(d).Success? ==>
      var r := Validate(d).value;
      && !r.isFeatured
      && r.description == body.description && r.prepTime == body.prepTime
      && r.cookTime == body.cookTime && r.servings == body.servings
      && r.ingredients == p.ingredients && r.instructions == p.instructions && r.tags == p.tags
      && (r.imageURL.Some? <==> file.Some?)
  {
    Draft(body.name, body.description, body.prepTime, body.cookTime, body.servings,
      Some(p.ingredients), Some(p.instructions),
      if file.Some? then Some(UploadPath(file.value)) else None,
      Some(p.tags), None)
  }

  /** `file` is the name the upload was stored under, if the request carried
      one; `newId` is the `_id` given to the new document. */
  function Create(s: Store, body: FormBody, file: Option<string>, newId: Id, dec: Decoders): (t: Transition)
    ensures t.unlink == []
    ensures t.response.Failure? ==> t.store == s && Status(t.response) == 400
    ensures t.response.Success? <==>
      ParsePayload(body, dec).Success? && Given(body.name) && newId !in s.records
    ensures t.response.Success? ==> t.response.value.Created? && t.response.value.doc.id == newId
    ensures t.response.Success? && t.response.value.Created? ==>
      var r := t.response.value.doc.recipe;
      && t.store.records == s.records[newId := r]
      && Some(r.name) == body.name
      && r.description == body.description
      && r.prepTime == body.prepTime
      && r.cookTime == body.cookTime
      && r.servings == body.servings
      && !r.isFeatured
      && (r.imageURL.Some? <==> file.Some?)
      && (file.Some? ==> r.imageURL == Some(UploadPath(file.value)))
  {
    match ParsePayload(body, dec)
    case Failure(e) => Transition(s, Failure(e), [])
    case Success(p) =>
      match Validate(CreateDraft(body, p, file))
      case Failure(e) => Transition(s, Failure(Invalid(e)), [])
      case Success(r) =>
        if newId in s.records then Transition(s, Failure(DuplicateKey), [])
        else Transition(Insert(s, newId, r), Success(Created(Document(newId, r))), [])
  }

  /** Absent array fields are saved as empty arrays, and the other fields
      are copied from the body. */
  lemma {:induction false} CreateDefaults(s: Store, body: FormBody, file: Option<string>, newId: Id, dec: Decoders)
    requires ReadsEmptyArray(dec)
    requires body.ingredients.None? && body.instructions.None? && body.tags.None?
    requires Given(body.name) && newId !in s.records
    ensures var t := Create(s, body, file, newId, dec);
      && t.response.Success?
      && t.response.value.doc.recipe == Recipe(
           body.name.value, body.description, body.prepTime, body.cookTime, body.servings,
           [], [], if file.Some? then Some(UploadPath(file.value)) else None, [], false)
  {
  }

  /** The `isFeatured` field of the body has no effect on a create. */
  lemma {:induction false} CreateIgnoresFeatured(s: Store, body: FormBody, flag: Option<string>, file: Option<string>, newId: Id, dec: Decoders)
    ensures Create(s, body, file, newId, dec) == Create(s, body.(isFeatured := flag), file, newId, dec)
  {
  }

  /** What was created is what is read back: the ingredients, instructions
      and tags come back in the order they were sent. */
  lemma {:induction false} CreateThenGet(s: Store, body: FormBody, file: Option<string>, newId: Id, dec: Decoders)
    requires Create(s, body, file, newId, dec).response.Success?
    ensures var t := Create(s, body, file, newId, dec);
      var p := ParsePayload(body, dec).value;
      && GetById(t.store, newId).response == Success(Found(t.response.value.doc))
      && t.response.value.doc.recipe.ingredients == p.ingredients
      && t.response.value.doc.recipe.instructions == p.instructions
      && t.response.value.doc.recipe.tags == p.tags
  {
  }

  // ---------------------------------------------------------------------
  // PUT /api/recipes/:id

  /** The old image a PUT hands to `fs.unlink`: only when a new file was
      uploaded and the old `imageURL` starts with the upload prefix. The
      test is on the text alone, so `..` segments after the prefix pass. */
  function StaleImage(prior: Recipe, file: Option<string>): (paths: seq<string>)
    ensures |paths| <= 1
    ensures paths != [] <==> file.Some? && prior.imageURL.Some? && UploadPrefix <= prior.imageURL.value
    ensures paths != [] ==> paths == [prior.imageURL.value]
  {
    if file.Some? && prior.imageURL.Some? && UploadPrefix <= prior.imageURL.value
    then [prior.imageURL.value]
    else []
  }

  /** The image rule of a PUT, in priority order: a new upload, then an
      explicitly empty `imageURL` (clear), then a non-empty `imageURL`
      (adopted verbatim), and otherwise the old value. */
  function NewImage(prior: Recipe, body: FormBody, file: Option<string>): (img: Option<string>)
    ensures file.Some? ==> img == Some(UploadPath(file.value))
    ensures file.None? && body.imageURL == Some("") ==> img == Some("")
    ensures file.None? && Given(body.imageURL) ==> img == body.imageURL
    ensures file.None? && body.imageURL.None? ==> img == prior.imageURL
    ensures img != prior.imageURL ==> file.Some? || body.imageURL.Some?
  {
    if file.Some? then Some(UploadPath(file.value))
    else if body.imageURL == Some("") then Some("")
    else if Given(body.imageURL) then body.imageURL
    else prior.imageURL
  }

  /** The document a PUT saves: the eight body fields overwrite the old ones
      unconditionally, `imageURL` follows the image rule, and `isFeatured`
      is kept. */
  function UpdateDraft(prior: Recipe, body: FormBody, p: Payload, file: Option<string>): (d: Draft)
    ensures Validate(d).Success? <==> Given(body.name)
    ensures Validate(d).Success? ==>
      var r := Validate(d).value;
      && r.isFeatured == prior.isFeatured
      && r.imageURL == NewImage(prior, body, file)
      && r.description == body.description && r.prepTime == body.prepTime
      && r.cookTime == body.cookTime && r.servings == body.servings
      && r.ingredients == p.ingredients && r.instructions == p.instructions && r.tags == p.tags
  {
    Draft(body.name, body.description, body.prepTime, body.cookTime, body.servings,
      Some(p.ingredients), Some(p.instructions), NewImage(prior, body, file),
      Some(p.tags), Some(prior.isFeatured))
  }

  /** The PUT route as written: the old image is handed to `fs.unlink`
      before the document is saved, so a save rejected by validation still
      deletes the file the unchanged record refers to. */
  function UpdateAsWritten(s: Store, id: Id, body: FormBody, file: Option<string>, dec: Decoders): (t: Transition)
    ensures id !in s.records ==> t == Transition(s, Failure(NotFound), [])
    ensures t.response.Failure? ==> t.store == s
    ensures t.response.Failure? && t.response.error != Invalid(NameRequired) ==> t.unlink == []
  {
    if id !in s.records then Transition(s, Failure(NotFound), [])
    else
      match ParsePayload(body, dec)
      case Failure(e) => Transition(s, Failure(e), [])
      case Success(p) =>
        var prior := s.records[id];
        var unlink := StaleImage(prior, file);
        match Validate(UpdateDraft(prior, body, p, file))
        case Failure(e) => Transition(s, Failure(Invalid(e)), unlink)
        case Success(r) => Transition(Replace(s, id, r), Success(Updated(Document(id, r))), unlink)
  }

  /** The PUT route with the old image unlinked only once the new document
      has been saved. */
  function Update(s: Store, id: Id, body: FormBody, file: Option<string>, dec: Decoders): (t: Transition)
    ensures id !in s.records ==> t == Transition(s, Failure(NotFound), [])
    ensures t.response.Failure? ==> t.store == s && t.unlink == []
    ensures t.response.Success? <==> id in s.records && ParsePayload(body, dec).Success? && Given(body.name)
    ensures t.response.Success? ==> id in s.records && t.response.value.Updated?
    ensures t.response.Success? && t.response.value.Updated? && id in s.records ==>
      && t.response.value.doc.id == id
      && t.store == Store(s.records[id := t.response.value.doc.recipe], s.order)
      && t.unlink == StaleImage(s.records[id], file)
  {
    if id !in s.records then Transition(s, Failure(NotFound), [])
    else
      match ParsePayload(body, dec)
      case Failure(e) => Transition(s, Failure(e), [])
      case Success(p) =>
        var prior := s.records[id];
        match Validate(UpdateDraft(prior, body, p, file))
        case Failure(e) => Transition(s, Failure(Invalid(e)), [])
        case Success(r) => Transition(Replace(s, id, r), Success(Updated(Document(id, r))), StaleImage(prior, file))
  }

  /** The two versions differ only in what a failed save unlinks. */
  lemma {:induction false} UpdateAgreesWithAsWritten(s: Store, id: Id, body: FormBody, file: Option<string>, dec: Decoders)
    ensures var t := Update(s, id, body, file, dec);
      var u := UpdateAsWritten(s, id, body, file, dec);
      && t.store == u.store && t.response == u.response
      && (t.response.Success? ==> t.unlink == u.unlink)
  {
  }

  /** A missing id is reported as 404 before the payload is parsed: a
      malformed payload for a missing id is still 404, and nothing changes. */
  lemma {:induction false} UpdateNotFoundFirst(s: Store, id: Id, body: FormBody, file: Option<string>, dec: Decoders)
    requires id !in s.records
    ensures Update(s, id, body, file, dec) == Transition(s, Failure(NotFound), [])
    ensures Status(Update(s, id, body, file, dec).response) == 404
  {
  }

  /** A malformed JSON field for a present id is a 400 that fails at the first
      malformed field, changes nothing and unlinks nothing, in both versions:
      the fields are parsed before the old image is looked at. */
  lemma {:induction false} UpdateMalformedJson(s: Store, id: Id, body: FormBody, file: Option<string>, dec: Decoders)
    requires id in s.records
    requires ParsePayload(body, dec).Failure?
    ensures var t := Update(s, id, body, file, dec);
      && t.store == s && t.unlink == [] && Status(t.response) == 400
      && UpdateAsWritten(s, id, body, file, dec) == t
    ensures dec.ingredients(OrEmptyArray(body.ingredients)).None? ==>
      Update(s, id, body, file, dec).response == Failure(InvalidJson("ingredients"))
    ensures dec.ingredients(OrEmptyArray(body.ingredients)).Some? && dec.strings(OrEmptyArray(body.instructions)).None? ==>
      Update(s, id, body, file, dec).response == Failure(InvalidJson("instructions"))
    ensures
      && dec.ingredients(OrEmptyArray(body.ingredients)).Some?
      && dec.strings(OrEmptyArray(body.instructions)).Some?
      && dec.strings(OrEmptyArray(body.tags)).None?
      ==> Update(s, id, body, file, dec).response == Failure(InvalidJson("tags"))
  {
  }

  /** A PUT for a present id whose body lacks a name (or gives an empty one)
      is a 400 with the validation message and leaves the store unchanged.
      The corrected route unlinks nothing; the route as written unlinks the
      stale image all the same. */
  lemma {:induction false} UpdateNameRequired(s: Store, id: Id, body: FormBody, file: Option<string>, dec: Decoders)
    requires id in s.records
    requires ParsePayload(body, dec).Success? && !Given(body.name)
    ensures Update(s, id, body, file, dec) == Transition(s, Failure(Invalid(NameRequired)), [])
    ensures Status(Update(s, id, body, file, dec).response) == 400
    ensures UpdateAsWritten(s, id, body, file, dec) ==
      Transition(s, Failure(Invalid(NameRequired)), StaleImage(s.records[id], file))
  {
  }

  /** The route as written, for every store: a rejected PUT with a new
      upload unlinks the old upload while the unchanged record still refers
      to it. */
  lemma {:induction false} UpdateAsWrittenRejectedUnlinks(s: Store, id: Id, body: FormBody, file: string, dec: Decoders)
    requires id in s.records
    requires ParsePayload(body, dec).Success? && !Given(body.name)
    requires s.records[id].imageURL.Some? && UploadPrefix <= s.records[id].imageURL.value
    ensures var t := UpdateAsWritten(s, id, body, Some(file), dec);
      && Status(t.response) == 400
      && t.store == s
      && t.unlink == [s.records[id].imageURL.value]
      && t.store.records[id].imageURL == Some(t.unlink[0])
  {
  }

  /** A successful PUT overwrites the eight body fields, follows the image
      rule, and keeps `isFeatured`, whatever the body says about it. */
  lemma {:induction false} UpdateOverwrites(s: Store, id: Id, body: FormBody, file: Option<string>, dec: Decoders)
    requires Update(s, id, body, file, dec).response.Success?
    ensures var r := Update(s, id, body, file, dec).response.value.doc.recipe;
      var prior := s.records[id];
      var p := ParsePayload(body, dec).value;
      && Some(r.name) == body.name
      && r.description == body.description
      && r.prepTime == body.prepTime
      && r.cookTime == body.cookTime
      && r.servings == body.servings
      && r.ingredients == p.ingredients
      && r.instructions == p.instructions
      && r.tags == p.tags
      && r.isFeatured == prior.isFeatured
  {
  }

  /** The image rule, case by case, for a PUT that succeeds. */
  lemma {:induction false} UpdateImageRule(s: Store, id: Id, body: FormBody, file: Option<string>, dec: Decoders)
    requires Update(s, id, body, file, dec).response.Success?
    ensures var t := Update(s, id, body, file, dec);
      var img := t.response.value.doc.recipe.imageURL;
      var prior := s.records[id];
      && (file.Some? ==> img == Some(UploadPath(file.value)))
      && (file.Some? ==> (t.unlink != [] <==> prior.imageURL.Some? && UploadPrefix <= prior.imageURL.value))
      && (t.unlink != [] ==> prior.imageURL.Some? && t.unlink == [prior.imageURL.value])
      && (file.None? ==> t.unlink == [])
      && (file.None? && body.imageURL == Some("") ==> img == Some(""))
      && (file.None? && Given(body.imageURL) ==> img == body.imageURL)
      && (file.None? && body.imageURL.None? ==> img == prior.imageURL)
  {
  }

  /** With an upload, the `imageURL` field of the body has no effect. */
  lemma {:induction false} UpdateUploadWins(s: Store, id: Id, body: FormBody, url: Option<string>, file: string, dec: Decoders)
    ensures Update(s, id, body, Some(file), dec) == Update(s, id, body.(imageURL := url), Some(file), dec)
  {
  }

  /** A PUT touches no record but its own, and never changes `isFeatured`. */
  lemma {:induction false} UpdateOthersUntouched(s: Store, id: Id, body: FormBody, file: Option<string>, dec: Decoders)
    ensures var s' := Update(s, id, body, file, dec).store;
      && s'.records.Keys == s.records.Keys
      && s'.order == s.order
      && (forall k :: k in s.records && k != id ==> s'.records[k] == s.records[k])
      && (forall k :: k in s.records ==> s'.records[k].isFeatured == s.records[k].isFeatured)
  {
  }

  /** The record as written keeps referring to a file that the route has
      just handed to `fs.unlink`: a PUT with a new upload but without a name
      is rejected, the stored document is unchanged, and its old image is
      deleted anyway. */
  lemma {:induction false} UpdateAsWrittenDanglingImage(dec: Decoders)
    requires ReadsEmptyArray(dec)
    ensures var prior := Recipe("Cake", None, None, None, None, [], [], Some("/uploads/old.png"), [], false);
      var s := Insert(Empty, "1", prior);
      var body := FormBody(None, None, None, None, None, None, None, None, None, None);
      var t := UpdateAsWritten(s, "1", body, Some("new.png"), dec);
      && Status(t.response) == 400
      && t.store.records["1"].imageURL == Some("/uploads/old.png")
      && t.unlink == ["/uploads/old.png"]
  {
  }

  /** After the corrected PUT, the record it saved never refers to a file
      it unlinked, provided the upload got a name no stored image uses
      (the server names uploads after the current time). */
  lemma {:induction false} UpdateKeepsReferencedImage(s: Store, id: Id, body: FormBody, file: Option<string>, dec: Decoders)
    requires id in s.records
    requires file.Some? ==> s.records[id].imageURL != Some(UploadPath(file.value))
    ensures var t := Update(s, id, body, file, dec);
      forall i :: 0 <= i < |t.unlink| ==>
        id in t.store.records && t.store.records[id].imageURL != Some(t.unlink[i])
  {
  }

  /** Two records may share an image path, since a PUT adopts any `imageURL`
      it is given; the corrected PUT of one still unlinks the file the other
      refers to. */
  lemma {:induction false} UpdateSharedImage(dec: Decoders)
    requires ReadsEmptyArray(dec)
    ensures var a := Recipe("Cake", None, None, None, None, [], [], Some("/uploads/a.png"), [], false);
      var s := Insert(Insert(Empty, "a", a), "b", a.(name := "Pie"));
      var body := FormBody(Some("Cake"), None, None, None, None, None, None, None, None, None);
      var t := Update(s, "a", body, Some("new.png"), dec);
      && t.response.Success?
      && t.unlink == ["/uploads/a.png"]
      && t.store.records["b"].imageURL == Some("/uploads/a.png")
  {
    var a := Recipe("Cake", None, None, None, None, [], [], Some("/uploads/a.png"), [], false);
    var s := Insert(Insert(Empty, "a", a), "b", a.(name := "Pie"));
    var body := FormBody(Some("Cake"), None, None, None, None, None, None, None, None, None);
    assert s.records["a"] == a && s.records["b"].imageURL == a.imageURL;
    assert ParsePayload(body, dec) == Success(Payload([], [], []));
    assert StaleImage(a, Some("new.png")) == ["/uploads/a.png"];
  }

  /** The upload-prefix test does not confine the unlink to upload storage: a
      PUT may store "/uploads/../server.js" verbatim, and the next PUT with a
      file hands that path, which `path.join` resolves to the server's own
      source file, to `fs.unlink`. */
  lemma {:induction false} UpdateUnlinksOutsideUploads(dec: Decoders)
    requires ReadsEmptyArray(dec)
    ensures var s := Insert(Empty, "1", Recipe("Cake", None, None, None, None, [], [], None, [], false));
      var named := FormBody(Some("Cake"), None, None, None, None, None, None, None, None, None);
      var t1 := Update(s, "1", named.(imageURL := Some("/uploads/../server.js")), None, dec);
      var t2 := Update(t1.store, "1", named, Some("new.png"), dec);
      && t1.response.Success? && t1.unlink == []
      && t2.response.Success? && t2.unlink == ["/uploads/../server.js"]
  {
    var s := Insert(Empty, "1", Recipe("Cake", None, None, None, None, [], [], None, [], false));
    var named := FormBody(Some("Cake"), None, None, None, None, None, None, None, None, None);
    var url := Some("/uploads/../server.js");
    assert ParsePayload(named, dec) == Success(Payload([], [], []));
    assert ParsePayload(named.(imageURL := url), dec) == Success(Payload([], [], []));
    var t1 := Update(s, "1", named.(imageURL := url), None, dec);
    assert t1.store.records["1"].imageURL == url;
    assert UploadPrefix <= url.value;
  }

  // ---------------------------------------------------------------------
  // DELETE /api/recipes/:id

  /** Removes exactly the given record; its image file is not removed. */
  function Delete(s: Store, id: Id): (t: Transition)
    ensures t.unlink == []
    ensures id !in s.records ==> t == Transition(s, Failure(NotFound), [])
    ensures id in s.records ==> t.response == Success(Deleted) && t.store.records == s.records - {id}
    ensures Message(t.response) == Some(if id in s.records then "Recipe successfully deleted" else "Recipe not found")
  {
    if id !in s.records then Transition(s, Failure(NotFound), [])
    else Transition(Remove(s, id), Success(Deleted), [])
  }

  // ---------------------------------------------------------------------
  // Store invariants kept by every route

  /** Every stored recipe has a name. */
  ghost predicate AllNamed(s: Store) {
    forall k :: k in s.records ==> WellFormed(s.records[k])
  }

  /** No stored recipe is featured. */
  ghost predicate NoneFeatured(s: Store) {
    forall k :: k in s.records ==> !s.records[k].isFeatured
  }

  lemma {:induction false} RoutesPreserveValid(s: Store, id: Id, newId: Id, body: FormBody, file: Option<string>, dec: Decoders)
    requires Valid(s)
    ensures Valid(Create(s, body, file, newId, dec).store)
    ensures Valid(Update(s, id, body, file, dec).store)
    ensures Valid(UpdateAsWritten(s, id, body, file, dec).store)
    ensures Valid(Delete(s, id).store)
  {
  }

  lemma {:induction false} RoutesPreserveNamed(s: Store, id: Id, newId: Id, body: FormBody, file: Option<string>, dec: Decoders)
    requires AllNamed(s)
    ensures AllNamed(Create(s, body, file, newId, dec).store)
    ensures AllNamed(Update(s, id, body, file, dec).store)
    ensures AllNamed(Delete(s, id).store)
  {
  }

  /** No route ever sets `isFeatured`: starting from a store with no featured
      recipe, none becomes featured, so `featured=true` then lists nothing. */
  lemma {:induction false} FeaturedNeverSet(s: Store, id: Id, newId: Id, body: FormBody, file: Option<string>, dec: Decoders, matches: Matcher)
    requires NoneFeatured(s)
    ensures NoneFeatured(Create(s, body, file, newId, dec).store)
    ensures NoneFeatured(Update(s, id, body, file, dec).store)
    ensures NoneFeatured(Delete(s, id).store)
    ensures Listing(s, None, Some("true"), matches) == []
  {
    UpdateOthersUntouched(s, id, body, file, dec);
    NoneFeaturedListsNothing(s, matches);
  }

  lemma {:induction false} NoneFeaturedListsNothing(s: Store, matches: Matcher)
    requires NoneFeatured(s)
    ensures Listing(s, None, Some("true"), matches) == []
  {
  }
}

=== FILE: store.dfy ===
/** The document store seen abstractly: a map from id to recipe, plus the
    store's natural order, in which queries return their results. */
module RecipeStore {
  import opened Recipes

  type Id = string

  /** A stored recipe together with its `_id`, as the handlers return it. */
  datatype Document = Document(id: Id, recipe: Recipe)

  datatype Store = Store(records: map<Id, Recipe>, order: seq<Id>)

  /** `order` lists every stored id exactly once. */
  ghost predicate Valid(s: Store) {
    && (forall i :: 0 <= i < |s.order| ==> s.order[i] in s.records)
    && (forall k :: k in s.records ==> k in s.order)
    && (forall i, j :: 0 <= i < j < |s.order| ==> s.order[i] != s.order[j])
  }

  const Empty: Store := Store(map[], [])

  lemma {:induction false} EmptyValid()
    ensures Valid(Empty)
  {
  }

  /** Every stored document, in natural order. */
  function Documents(s: Store): (docs: seq<Document>)
    ensures forall i :: 0 <= i < |docs| ==>
      docs[i].id in s.records && docs[i].recipe == s.records[docs[i].id]
  {
    DocumentsOf(s.records, s.order)
  }

  function DocumentsOf(records: map<Id, Recipe>, order: seq<Id>): (docs: seq<Document>)
    ensures |docs| <= |order|
    ensures forall i :: 0 <= i < |docs| ==>
      docs[i].id in records && docs[i].recipe == records[docs[i].id]
    ensures forall i :: 0 <= i < |order| && order[i] in records ==>
      Document(order[i], records[order[i]]) in docs
  {
    if order == [] then []
    else
      var rest := DocumentsOf(records, order[1..]);
      if order[0] in records then [Document(order[0], records[order[0]])] + rest else rest
  }

  /** In a valid store there is one document per stored record. */
  lemma {:induction false} DocumentsComplete(s: Store)
    requires Valid(s)
    ensures |Documents(s)| == |s.records|
    ensures forall k :: k in s.records ==> Document(k, s.records[k]) in Documents(s)
  {
    DocumentsOfLength(s.records, s.order);
    forall k | k in s.records
      ensures Document(k, s.records[k]) in Documents(s)
    {
      var i :| 0 <= i < |s.order| && s.order[i] == k;
    }
  }

  lemma {:induction false} DocumentsOfLength(records: map<Id, Recipe>, order: seq<Id>)
    requires forall i :: 0 <= i < |order| ==> order[i] in records
    requires forall k :: k in records ==> k in order
    requires forall i, j :: 0 <= i < j < |order| ==> order[i] != order[j]
    ensures |DocumentsOf(records, order)| == |order| == |records|
  {
    if order == [] {
      assert records.Keys == {};
    } else {
      var k := order[0];
      var rest := map x | x in records && x != k :: records[x];
      assert records.Keys == rest.Keys + {k};
      assert |records| == |rest| + 1;
      DocumentsOfLength(rest, order[1..]);
      DocumentsOfSameOn(records, rest, order[1..]);
    }
  }

  /** Records outside `order` do not affect the documents listed. */
  lemma {:induction false} DocumentsOfSameOn(m1: map<Id, Recipe>, m2: map<Id, Recipe>, order: seq<Id>)
    requires forall i :: 0 <= i < |order| ==>
      (order[i] in m1 <==> order[i] in m2) && (order[i] in m1 ==> m1[order[i]] == m2[order[i]])
    ensures DocumentsOf(m1, order) == DocumentsOf(m2, order)
  {
    if order != [] {
      DocumentsOfSameOn(m1, m2, order[1..]);
    }
  }

  /** Adds a new record at the end of the natural order. */
  function Insert(s: Store, id: Id, r: Recipe): (s': Store)
    requires id !in s.records
    ensures s'.records == s.records[id := r]
    ensures Valid(s) ==> Valid(s')
    ensures id !in s.order ==> Documents(s') == Documents(s) + [Document(id, r)]
  {
    var s' := Store(s.records[id := r], s.order + [id]);
    if id !in s.order then InsertDocuments(s.records, s.order, id, r); s' else s'
  }

  lemma {:induction false} InsertDocuments(records: map<Id, Recipe>, order: seq<Id>, id: Id, r: Recipe)
    requires id !in records && id !in order
    ensures DocumentsOf(records[id := r], order + [id]) == DocumentsOf(records, order) + [Document(id, r)]
  {
    if order == [] {
      assert DocumentsOf(records[id := r], [id][1..]) == [];
    } else {
      assert (order + [id])[1..] == order[1..] + [id];
      assert order[0] != id;
      InsertDocuments(records, order[1..], id, r);
    }
  }

  /** Overwrites a stored record in place; its position in the natural order
      is kept. */
  function Replace(s: Store, id: Id, r: Recipe): (s': Store)
    requires id in s.records
    ensures s'.records == s.records[id := r]
    ensures s'.order == s.order
    ensures Valid(s) ==> Valid(s')
  {
    Store(s.records[id := r], s.order)
  }

  /** Removes a stored record. */
  function Remove(s: Store, id: Id): (s': Store)
    ensures s'.records == s.records - {id}
    ensures Valid(s) ==> Valid(s')
  {
    var order' := RemoveId(s.order, id);
    Store(s.records - {id}, order')
  }

  function RemoveId(order: seq<Id>, id: Id): (r: seq<Id>)
    ensures id !in r
    ensures forall i :: 0 <= i < |r| ==> r[i] in order && r[i] != id
    ensures forall k :: k in r <==> k in order && k != id
    ensures (forall i, j :: 0 <= i < j < |order| ==> order[i] != order[j]) ==>
      (forall i, j :: 0 <= i < j < |r| ==> r[i] != r[j])
  {
    if order == [] then []
    else if order[0] == id then RemoveId(order[1..], id)
    else
      var rest := RemoveId(order[1..], id);
      [order[0]] + rest
  }
}

=== FILE: text.dfy ===
/** The string operations the client uses: `String.prototype.trim`,
    `String.prototype.split` on a one-character separator, and
    `Array.prototype.join`. */
module Text {

  /** The characters `trim` removes: the ECMAScript WhiteSpace and
      LineTerminator code points. */
  predicate IsSpace(c: char) {
    || c == '\t' || c == '\n' || c == '\U{000B}' || c == '\U{000C}' || c == '\r'
    || c == ' ' || c == '\U{00A0}' || c == '\U{1680}'
    || ('\U{2000}' <= c <= '\U{200A}')
    || c == '\U{2028}' || c == '\U{2029}' || c == '\U{202F}' || c == '\U{205F}'
    || c == '\U{3000}' || c == '\U{FEFF}'
  }

  /** Neither starts nor ends with a space. */
  predicate Trimmed(s: string) {
    s == [] || (!IsSpace(s[0]) && !IsSpace(s[|s| - 1]))
  }

  /** `s.trim()`: `s` without its leading and trailing spaces. */
  function Trim(s: string): (r: string)
    ensures Trimmed(r)
    ensures |r| <= |s|
  {
    if s == [] then s
    else if IsSpace(s[0]) then Trim(s[1..])
    else if IsSpace(s[|s| - 1]) then Trim(s[..|s| - 1])
    else s
  }

  /** How many spaces `s` starts with. */
  function Lead(s: string): (n: nat)
    ensures n <= |s|
    ensures forall k :: 0 <= k < n ==> IsSpace(s[k])
  {
    if s != [] && IsSpace(s[0]) then 1 + Lead(s[1..]) else 0
  }

  /** `r` is the substring of `s` behind its `Lead(s)` leading spaces, and
      only spaces follow it. */
  ghost predicate KeptBetweenSpaces(s: string, r: string) {
    && Lead(s) + |r| <= |s| && r == s[Lead(s)..Lead(s) + |r|]
    && (forall k :: Lead(s) + |r| <= k < |s| ==> IsSpace(s[k]))
  }

  /** `trim` keeps a substring of `s`, dropping only spaces on either side. */
  lemma {:induction false} TrimKeepsSubstring(s: string)
    ensures KeptBetweenSpaces(s, Trim(s))
  {
    if s == [] {
    } else if IsSpace(s[0]) {
      TrimKeepsSubstring(s[1..]);
      KeptBehindSpace(s, Trim(s[1..]));
    } else if IsSpace(s[|s| - 1]) {
      TrimKeepsSubstring(s[..|s| - 1]);
      KeptBeforeSpace(s, Trim(s[..|s| - 1]));
    }
  }

  /** A leading space moves the kept substring one place on. */
  lemma {:induction false} KeptBehindSpace(s: string, r: string)
    requires s != [] && IsSpace(s[0]) && KeptBetweenSpaces(s[1..], r)
    ensures KeptBetweenSpaces(s, r)
  {
    var u := s[1..];
    var n := Lead(u);
    assert Lead(s) == 1 + n;
    SliceOfTail(s, n, n + |r|);
    forall k | 1 + n + |r| <= k < |s| ensures IsSpace(s[k]) {
      assert s[k] == u[k - 1];
    }
  }

  /** A trailing space behind a string that does not start with a space
      keeps the same substring. */
  lemma {:induction false} KeptBeforeSpace(s: string, r: string)
    requires |s| >= 2 && !IsSpace(s[0]) && IsSpace(s[|s| - 1])
    requires KeptBetweenSpaces(s[..|s| - 1], r)
    ensures KeptBetweenSpaces(s, r)
  {
    var t := s[..|s| - 1];
    assert t[0] == s[0];
    assert Lead(t) == 0 && Lead(s) == 0;
    SliceOfInit(s, |r|);
    forall k | |r| <= k < |s| ensures IsSpace(s[k]) {
      if k < |t| {
        assert s[k] == t[k];
      }
    }
  }

  /** A slice of the tail is the slice of `s` one place further on. */
  lemma {:induction false} SliceOfTail(s: string, a: nat, b: nat)
    requires a <= b <= |s| - 1
    ensures s[1..][a..b] == s[1 + a..1 + b]
  {
    forall j | 0 <= j < b - a ensures s[1..][a..b][j] == s[1 + a..1 + b][j] {
      assert s[1..][a + j] == s[1 + a + j];
    }
  }

  /** A prefix of `s` without its last character is a prefix of `s`. */
  lemma {:induction false} SliceOfInit(s: string, b: nat)
    requires b <= |s| - 1
    ensures s[..|s| - 1][..b] == s[..b]
  {
  }

  /** Trimming cannot bring in a character that was not there. */
  lemma {:induction false} TrimInside(s: string, c: char)
    requires c !in s
    ensures c !in Trim(s)
  {
    TrimKeepsSubstring(s);
  }

  /** A string with nothing to trim is left as it is. */
  lemma {:induction false} TrimOfTrimmed(s: string)
    requires Trimmed(s)
    ensures Trim(s) == s
  {
  }

  /** Trimming twice is trimming once. */
  lemma {:induction false} TrimIdempotent(s: string)
    ensures Trim(Trim(s)) == Trim(s)
  {
  }

  /** One space put in front of a non-empty trimmed string is trimmed away. */
  lemma {:induction false} TrimPadded(t: string)
    requires t != [] && Trimmed(t)
    ensures Trim(" " + t) == t
  {
  }

  /** `s.split(sep)`: the pieces between the separators, in order; an empty
      string gives one empty piece. */
  function Split(s: string, sep: char): (parts: seq<string>)
    ensures |parts| >= 1
    ensures forall i :: 0 <= i < |parts| ==> sep !in parts[i]
  {
    if s == [] then [""]
    else
      var rest := Split(s[1..], sep);
      if s[0] == sep then [""] + rest
      else [[s[0]] + rest[0]] + rest[1..]
  }

  /** `parts.join(sep)`: the pieces in order, one separator between each two
      neighbours and none at either end. */
  function Join(parts: seq<string>, sep: string): (r: string)
    ensures parts == [] ==> r == ""
    ensures |parts| >= 1 ==> parts[0] <= r
    ensures |parts| >= 2 ==> parts[0] + sep <= r
  {
    if |parts| == 0 then ""
    else if |parts| == 1 then parts[0]
    else parts[0] + sep + Join(parts[1..], sep)
  }

  /** Gluing a prefix onto the first piece glues it onto the joined string. */
  lemma {:induction false} JoinGlue(c: string, parts: seq<string>, sep: string)
    requires |parts| >= 1
    ensures Join([c + parts[0]] + parts[1..], sep) == c + Join(parts, sep)
  {
    var glued := [c + parts[0]] + parts[1..];
    assert glued[1..] == parts[1..];
  }

  /** Splitting and joining again gives the original string. */
  lemma {:induction false} JoinSplit(s: string, sep: char)
    ensures Join(Split(s, sep), [sep]) == s
  {
    if s != [] {
      JoinSplit(s[1..], sep);
      var rest := Split(s[1..], sep);
      if s[0] != sep {
        var parts := [[s[0]] + rest[0]] + rest[1..];
        assert parts[1..] == rest[1..];
        if |rest| > 1 {
          assert rest == [rest[0]] + rest[1..];
          assert Join(rest, [sep]) == rest[0] + [sep] + Join(rest[1..], [sep]);
        }
        assert s == [s[0]] + s[1..];
      } else {
        var parts := [""] + rest;
        assert parts[1..] == rest;
        assert s == [sep] + s[1..];
      }
    }
  }

  /** A piece free of the separator followed by the rest: the piece is glued
      to the first piece of the rest. */
  lemma {:induction false} SplitPrefix(p: string, rest: string, sep: char)
    requires sep !in p
    ensures Split(p + rest, sep) == [p + Split(rest, sep)[0]] + Split(rest, sep)[1..]
  {
    if p != [] {
      assert (p + rest)[1..] == p[1..] + rest;
      SplitPrefix(p[1..], rest, sep);
      assert [p[0]] + (p[1..] + Split(rest, sep)[0]) == p + Split(rest, sep)[0];
    } else {
      var parts := Split(rest, sep);
      assert p + rest == rest;
      assert p + parts[0] == parts[0];
      assert parts == [parts[0]] + parts[1..];
    }
  }

  /** Joining separator-free pieces and splitting again gives the pieces. */
  lemma {:induction false} SplitJoin(parts: seq<string>, sep: char)
    requires |parts| >= 1
    requires forall i :: 0 <= i < |parts| ==> sep !in parts[i]
    ensures Split(Join(parts, [sep]), sep) == parts
  {
    if |parts| == 1 {
      SplitPrefix(parts[0], "", sep);
      assert parts[0] + "" == parts[0];
    } else {
      var tail := Join(parts[1..], [sep]);
      SplitJoin(parts[1..], sep);
      assert parts[0] + [sep] + tail == parts[0] + ([sep] + tail);
      SplitPrefix(parts[0], [sep] + tail, sep);
      assert ([sep] + tail)[1..] == tail;
      assert Split([sep] + tail, sep) == [""] + Split(tail, sep);
      assert parts[0] + "" == parts[0];
      assert parts == [parts[0]] + parts[1..];
    }
  }
}

=== FILE: wrappers.dfy ===
/** JavaScript's `undefined` fields and the error paths of the request
    handlers. */
module Wrappers {

  /** A field that may be `undefined` (`None`). */
  datatype Option<+T> = None | Some(value: T)

  /** A field with a default: the value when there is one, `fallback` when
      the field is `undefined`. */
  function OrElse<T>(o: Option<T>, fallback: T): T {
    if o.Some? then o.value else fallback
  }

  /** A handler's outcome: a value, or the reason it failed. */
  datatype Result<+R, +E> = Success(value: R) | Failure(error: E)
}
